=== FILE: README.md ===
# Tooling core in Dafny

A model of the deterministic logic of a set of personal maintenance scripts.
The network, the filesystem, git and zip/JSON decoding are given to the model
as inputs. The model covers:

- **The Modrinth mod updater** (`minecraft_mod_updater.py`):
  - how a mod jar is recognised from its descriptor files;
  - how a mod is matched against registry search hits;
  - when a new version is downloaded and the old jar replaced;
  - how the run counters move.
- **The GitHub helper scripts** (`ghsummarize.py`, `ghextractall.py`, `ghextract.py`, `summarize.py`, `extract.py`):
  - the `.branch` and `.ignore`/`.ownerignore` files;
  - repository names taken from clone URLs and git remotes;
  - output file names;
  - the skip decision per repository;
  - the per-file records of the repository dumps.

Modules:

- `Wrappers`: `Option`.
- `Text`: the Python string operations the scripts use, written out: `strip`, `split`, `replace`, `in`, `lower`, and the `str.isspace` character set.
- `ModScan`: `scan_mods` and `process_mod_file`. An archive is a list of entry names plus the already-decoded contents of `fabric.mod.json`, `META-INF/mods.toml` and `mcmod.info`.
- `ModResolve`: search terms, hit scoring, the first strict maximum per term, and acceptance across terms.
- `ModUpdate`: the update path.
  - The registry is a record of four functions: lookup, versions, search and download.
  - The mods directory is a map from file to bytes. A path names a file through `FileKey`, which folds the case of letters on a filesystem that ignores case.
  - It covers `update_modrinth_mod`, `_search_and_update_mod`, `_download_and_replace_mod` and the counters of `update_mods`.
- `RepoConfig`: `load_branch_config` and `load_ignore_list`, over the lines of the file.
- `RepoNaming`: the `get_repo_name` variants, `get_repo_info`, output names and the per-repository plan of the two bulk tools.
- `DumpFormat`: the three record framings, with a parser for each, so that each framing can be shown to lose nothing.

Reading a file for a dump gives one of five outcomes:

- read as text;
- too large;
- not UTF-8;
- permission denied;
- another error.

Notes on the code as written:

- The best search hit is chosen afresh for every search term (`minecraft_mod_updater.py:272-273`); nothing carries over between terms. The acceptance threshold of 5 equals the smallest positive score, so a term is accepted exactly when one of its hits scores above zero (`ModResolve.AcceptsIffPositive`).
- An exact slug match also earns the substring bonus, because the equal string is contained in itself. So hits `("foo-mod", "Bar")` and `("other", "Foo Mod")` for id `foo-mod` and name `Foo Mod` score 15 each, not 10, and the earlier hit wins (`ModResolve.TieKeepsFirst`).
- Either update path counts a mod as updated even when the download or the removal failed, because the return value of `_download_and_replace_mod` is ignored (`ModUpdate.FailedDownloadCounted`).
- `_download_and_replace_mod` removes the old jar whenever the two path strings differ, even when they name one file. The model compares files and keeps the code as written as `ModUpdate.DownloadAndReplaceAsWritten` (see Findings).
- ghextractall.py counts a PermissionError as binary. Any other read error escapes `extract_contents`, so no dump is written for that repository (`DumpFormat.ExtractAllDumpFails`).

## Model

| member | source | states |
|---|---|---|
| ModScan.FieldValue | minecraft_mod_updater.py:110 | taking the field value fails (the IndexError of `split('=')[1]` on a single part) exactly when the line has no `=` |
| ModScan.FieldValueSecondSegment | minecraft_mod_updater.py:110-112 | the value is the text between the first and the second `=`, whitespace-stripped and then stripped of quotes |
| ModScan.FieldValueRoundTrip | minecraft_mod_updater.py:110-112 | a line `key <sp>= <sp>"v"<sp>` gives back exactly `v` |
| ModScan.QuotesRemoved | minecraft_mod_updater.py:110 | stripping quote characters from a double-quoted value gives the value |
| ModScan.ScanTomlStops | minecraft_mod_updater.py:108-114 | once both fields are non-empty the scan stops: later lines cannot change the result |
| ModScan.ScanTomlConcat | minecraft_mod_updater.py:108-114 | the scan is a left fold: scanning a concatenation scans the second part from the state the first part left |
| ModScan.ScanTomlFailed | minecraft_mod_updater.py:108-114 | a line that raised makes the whole scan fail whatever follows |
| ModScan.MissingEqualsRaises | minecraft_mod_updater.py:109-112 | a `modId` or `displayName` line without `=` raises |
| ModScan.FieldValueOneEquals | minecraft_mod_updater.py:110-112 | a line `key=a` with a single `=` gives `a`, whitespace-stripped and then stripped of quotes |
| ModScan.TomlWithoutEqualsDropped | minecraft_mod_updater.py:104-143 | an archive whose `mods.toml` reaches a `modId` or `displayName` line without `=` before both fields are set yields no record: the exception is caught and the archive is dropped |
| ModScan.ReadFabric | minecraft_mod_updater.py:96-101 | `fabric.mod.json` gives a descriptor exactly when it parses as a JSON object, and that descriptor carries the fabric tag |
| ModScan.ReadToml | minecraft_mod_updater.py:104-114 | a `mods.toml` that is not UTF-8 gives no descriptor; every descriptor it gives carries the forge tag |
| ModScan.ReadDescriptor | minecraft_mod_updater.py:92-127 | a descriptor without a loader tag comes only from an archive holding none of the three descriptor entries |
| ModScan.DescriptorPriority | minecraft_mod_updater.py:96-127 | exactly one descriptor is read, the first present in the order fabric.mod.json, META-INF/mods.toml, mcmod.info; the other two cannot change the result; the loader is fabric exactly for fabric.mod.json |
| ModScan.ReadMcmod | minecraft_mod_updater.py:118-127 | every descriptor read from mcmod.info carries the forge tag |
| ModScan.McmodShapeWithoutRecord | minecraft_mod_updater.py:121-130 | an empty list, a dict without `modList` or a scalar leaves the id unset, so no record is produced |
| ModScan.ProcessModFile | minecraft_mod_updater.py:130-137 | a stored record has the archive's path and file name, a non-empty id and name, and a loader the filter admits |
| ModScan.ProcessModFileKept | minecraft_mod_updater.py:84-143 | a record is stored exactly when the descriptor was read, its id is non-empty and the filter admits its loader; the name falls back to the id; processing fails exactly when opening or reading raised |
| ModScan.RecordsFilter | minecraft_mod_updater.py:130 | scanning with a loader filter keeps exactly the records of that loader from an unfiltered scan, in the same order |
| ModScan.RecordsSound | minecraft_mod_updater.py:78-137 | every record comes from a scanned archive with that archive's path and name, has a non-empty id and an admitted loader; there are never more records than archives |
| ModScan.ScanMods | minecraft_mod_updater.py:61-82 | the scan fails exactly when the directory is missing or holds no `.jar` file; otherwise there are never more records than files |
| ModScan.Jars | minecraft_mod_updater.py:69 | the jar list holds exactly the files whose name ends in `.jar` |
| ModResolve.SearchTerms | minecraft_mod_updater.py:251-253 | the terms are the id first, then the name exactly when it is non-empty and differs from the id |
| ModResolve.SingleTermWhenNameIsId | minecraft_mod_updater.py:251-257 | a mod whose name equals its id is searched once, by id |
| ModResolve.Score | minecraft_mod_updater.py:277-285 | a score is a multiple of 5 between 0 and 30 |
| ModResolve.ScorePositive | minecraft_mod_updater.py:277-285 | a hit scores above zero exactly when the lowered id is in the slug or the lowered name is in the lowered title; an exact slug or title match scores at least 15 |
| ModResolve.BestIndex | minecraft_mod_updater.py:272-289 | the chosen index is one of the hits and its score is positive |
| ModResolve.BestIndexIsFirstMaximum | minecraft_mod_updater.py:272-289 | the chosen hit has a positive score, strictly above every earlier hit and at least every later one; there is none exactly when no hit scores above zero |
| ModResolve.FirstMaximumUnique | minecraft_mod_updater.py:287-289 | at most one hit is the first strict maximum |
| ModResolve.BestMatch | minecraft_mod_updater.py:272-289 | the loop returns the first strict maximum and its score, or no hit and score 0 exactly when every hit scores 0 |
| ModResolve.TieKeepsFirst | minecraft_mod_updater.py:277-289 | two hits with equal score 15: the first is chosen |
| ModResolve.AcceptsIffPositive | minecraft_mod_updater.py:270-294 | a term's response is accepted exactly when one of its hits scores above zero |
| ModResolve.ResolveFrom | minecraft_mod_updater.py:257-294 | a term that resolves or fails lies at or after the starting term, and a failure is that term's search request failing |
| ModResolve.ResolvedIsBest | minecraft_mod_updater.py:257-294 | a resolved project is the first strict maximum of the term that accepted it, with score at least 5 |
| ModResolve.StopsAtFirst | minecraft_mod_updater.py:257-294 | every term before the one that resolved or failed was passed over; a failure is the search request of that term failing |
| ModResolve.UnresolvedIffAllPassed | minecraft_mod_updater.py:257-294 | no project is found exactly when every term was searched and none accepted |
| ModUpdate.VersionsUrl | minecraft_mod_updater.py:205-207 | the versions URL is the project's `/version` endpoint |
| ModUpdate.VersionsUrlQuery | minecraft_mod_updater.py:301-303 | the URL carries a query exactly when a game version is configured |
| ModUpdate.ModPathDistinct | minecraft_mod_updater.py:347 | different file names give different paths in the mods directory |
| ModUpdate.DownloadAndReplace | minecraft_mod_updater.py:339-360 | working on the files the two paths name, the replacement only ever adds the new file |
| ModUpdate.DownloadAndReplaceSpec | minecraft_mod_updater.py:339-360 | corrected: a failed download, or a new file that cannot be written, changes nothing and returns false; otherwise the new content is in the new file, and an old file that is another file survives exactly when it exists and cannot be removed; the result is true exactly when the content was stored and the old file, if another, existed and could be removed; every other file is untouched |
| ModUpdate.NeverWithoutJar | minecraft_mod_updater.py:350-355 | corrected: the new file is written before the old one is removed, so in every intermediate state one of the two is present |
| ModUpdate.DownloadAndReplaceAsWritten | minecraft_mod_updater.py:350-355 | as written, removing the old path whenever the path strings differ agrees with the file-comparing replacement except when two different paths name one file |
| ModUpdate.CaseOnlyRenameAsWritten | minecraft_mod_updater.py:350-355 | as written, two different paths naming one file: the new content overwrites the old jar, the removal deletes it, and the call reports success with neither file present |
| ModUpdate.SodiumPathsOneFile | minecraft_mod_updater.py:225 | `mods/sodium.jar` and `mods/Sodium.jar` differ as strings but name one file when case is ignored |
| ModUpdate.SodiumRenameLosesJar | minecraft_mod_updater.py:350-355 | as written, replacing `sodium.jar` by `Sodium.jar` on a filesystem that ignores case reports success and leaves the mods directory empty |
| ModUpdate.CaseOnlyRenameKeepsJar | minecraft_mod_updater.py:350-355 | corrected: a new name equal to the current one up to case, on such a filesystem, is written over the old jar, nothing is removed, and the directory holds the new content |
| ModUpdate.LockedJarKept | minecraft_mod_updater.py:229-231 | when the old jar cannot be removed, the replacement reports failure, both jars stay, and the mod still counts as updated |
| ModUpdate.Install | minecraft_mod_updater.py:213-231 | files change only when a replacement happens, and a replacement never installs the current file name |
| ModUpdate.CurrentOrEmptyUntouched | minecraft_mod_updater.py:213-227 | no versions, or a newest file equal to the current one: no file changes and nothing is counted as updated |
| ModUpdate.FailedDownloadCounted | minecraft_mod_updater.py:229-231 | a failed download leaves the files as they were but still counts the mod as updated |
| ModUpdate.SearchSource | minecraft_mod_updater.py:296-313 | the search path reports the mod missing exactly when no term resolved |
| ModUpdate.VersionSource | minecraft_mod_updater.py:190-211 | on a 404 signal the versions come from the search path; otherwise the search is not run and the mod is not reported missing |
| ModUpdate.UpdateMod | minecraft_mod_updater.py:182-241 | a replacement never installs the current file name |
| ModUpdate.SearchOnlyOnFallback | minecraft_mod_updater.py:191-237 | the search runs exactly on a 404 status or a request error mentioning 404; a mod counts as not found exactly when the search ran and every term was searched without an accepted hit |
| ModUpdate.UpdateModFrame | minecraft_mod_updater.py:182-241 | only a replacement changes files, and it touches only the old and the new jar path |
| ModUpdate.ReplacedRemovesOld | minecraft_mod_updater.py:339-360 | corrected: for a jar at its scanned path: on a filesystem that tells case apart the new name is always another file; when it is another file, success means exactly that the old jar existed, is gone and the new one is present; when it is the same file up to case, success leaves the new jar in place and failure changes nothing; a mod that was there is afterwards present as its old or its new file |
| ModUpdate.RerunFindsCurrent | minecraft_mod_updater.py:224-227 | corrected: after a successful replacement the installed jar is in the directory, and a record of it with the same id and name is found current against the same registry, changing nothing |
| ModUpdate.Tally | minecraft_mod_updater.py:154-157 | every mod is counted as checked, and at most one of updated and not found moves |
| ModUpdate.UpdateEach | minecraft_mod_updater.py:154-159 | one outcome per mod, and the checked counter grows by the number of mods |
| ModUpdate.UpdateMods | minecraft_mod_updater.py:145-163 | one outcome per mod, and the checked counter ends at the number of mods |
| ModUpdate.UpdateEachHead | minecraft_mod_updater.py:154-159 | mods are updated in order, each seeing the files left by the previous one |
| ModUpdate.UpdateEachCounts | minecraft_mod_updater.py:145-163 | the counters add the number of mods, of replacements and of not-found outcomes |
| ModUpdate.UpdateModsCounts | minecraft_mod_updater.py:145-163 | from zero: checked is the number of mods, updated and not found count their outcomes, and the two together never exceed checked |
| RepoConfig.SplitOnce | ghsummarize.py:47 | `split(None, 1)` gives at most two parts, and none exactly when the line is all white space |
| RepoConfig.SplitOnceFirstWord | ghsummarize.py:47 | `split(None, 1)` gives a first part that is a non-empty run of non-space characters |
| RepoConfig.SplitOnceRemainder | ghsummarize.py:47 | the second part is non-empty and starts with a non-space character |
| RepoConfig.SplitOnceSuffix | ghsummarize.py:47 | the second part is a suffix of the line |
| RepoConfig.SplitOnceStartsWord | ghsummarize.py:47 | for a line not starting with white space, the first part is its prefix |
| RepoConfig.SplitKeyBranch | ghsummarize.py:47-49 | a word, a white-space gap and a remainder split into exactly the word and the remainder |
| RepoConfig.ParseBranchLine | ghsummarize.py:42-50 | an accepted line gives a key without white space and not starting with `#`, and a non-empty stripped branch |
| RepoConfig.BranchLineRoundTrip | ghsummarize.py:42-50 | an indented `key  branch` line reads back as exactly that key and branch |
| RepoConfig.OneWordLineIgnored | ghsummarize.py:48 | a line of one word adds no mapping |
| RepoConfig.AssignDomain | ghsummarize.py:42-50 | a key is mapped exactly when some line declares it |
| RepoConfig.AssignLastWriter | ghsummarize.py:50 | a key maps to the branch of its last declaring line |
| RepoConfig.BranchMapLastWriter | ghextractall.py:37-46 | the same over the lines of the file: a key is present exactly when some line declares it, and the last such line wins |
| RepoConfig.BranchMap | ghsummarize.py:42-50 | every key is non-empty, holds no white space and does not start with `#`, and maps to a non-empty branch |
| RepoConfig.LoadBranchConfig | ghsummarize.py:35-52 | a missing file gives the empty map, and every branch is non-empty |
| RepoConfig.LoadIgnoreList | ghsummarize.py:54-59 | a missing file gives the empty set |
| RepoConfig.IgnoreSetMembers | ghextractall.py:50-55 | an entry is in the set exactly when some line not starting with `#` strips to it |
| RepoConfig.IgnoreSet | ghsummarize.py:54-59 | entries are non-empty and neither start nor end with white space |
| RepoConfig.IndentedHashKept | ghsummarize.py:59 | the `#` test is on the unstripped line: ` #x` is kept as `#x`, `#x` is dropped |
| RepoNaming.DropGitSuffix | ghsummarize.py:79 | the name is never longer, and is unchanged without a final `.git` |
| RepoNaming.DropGitSuffixRoundTrip | ghextract.py:16 | removing the suffix from `n.git` gives `n`; a name without it is unchanged |
| RepoNaming.RepoNameFromCloneUrl | ghsummarize.py:77-79 | the name taken from a clone URL holds no `/` |
| RepoNaming.RepoNameFromArg | ghextract.py:14-16 | the name taken from the URL argument holds no `/` |
| RepoNaming.CloneUrlName | ghsummarize.py:77-79 | `base/n.git` with any trailing slashes gives `n` |
| RepoNaming.CloneUrlNoSuffix | ghextractall.py:73-75 | `base/n` with trailing slashes gives `n` when `n` has no `.git` suffix |
| RepoNaming.ArgUrlName | ghextract.py:14-16 | a URL `base/n.git` with surrounding white space gives `n` |
| RepoNaming.TrailingSlashNames | ghextract.py:16 | ghextract.py gives the empty name for a URL ending in `/`; the bulk tools drop trailing slashes first |
| RepoNaming.ParseRemote | summarize.py:80-97 | with no remote, the owner is `local` and the name is the last path segment; any owner found holds no `/` |
| RepoNaming.RepoInfoAsWritten | summarize.py:80-97 | as written: with no remote, the owner is `local` and the name is the last path segment; any owner found holds no `/` |
| RepoNaming.HttpsSegments | summarize.py:84-87 | an HTTPS remote gives the second-to-last segment as owner and the cleaned last segment as name |
| RepoNaming.HttpsRemote | summarize.py:84-87 | as written the name has every `.git` removed; corrected, only the terminal one |
| RepoNaming.HttpsRemoteRoundTrip | summarize.py:80-87 | corrected: `https://host/owner/n.git` reads back as owner and `n` |
| RepoNaming.NotHttps | summarize.py:84-88 | a `login:...` remote takes the SSH branch |
| RepoNaming.SshSegments | summarize.py:89 | only the text after the last `:` is looked at |
| RepoNaming.SshTail | summarize.py:89-91 | `owner/last` gives owner and the cleaned last segment |
| RepoNaming.SshRemoteRoundTrip | summarize.py:88-91 | corrected: `login:owner/n.git` reads back as owner and `n` |
| RepoNaming.SshRemoteWithoutOwner | summarize.py:90-91 | `login:n.git` has no owner |
| RepoNaming.InnerGitRemoved | summarize.py:87 | `replace('.git', '')` also removes a `.git` inside the name |
| RepoNaming.HttpsInnerGitAsWritten | summarize.py:84-87 | for a name with an inner `.git`, the code as written and the corrected parse disagree |
| RepoNaming.PagesRemoteAsWritten | summarize.py:87 | `https://github.com/alice/alice.github.io.git` is named `alicehub.io` as written and `alice.github.io` corrected |
| RepoNaming.OutputName | ghsummarize.py:258-261 | an output name starts with `owner_` and ends with its suffix |
| RepoNaming.OutputNameRoundTrip | ghextractall.py:171-174 | owner and name can be read back from `owner_name<suffix>` when the owner has no `_` |
| RepoNaming.JoinPath | summarize.py:222 | a joined path ends with the name and starts with `dir/` |
| RepoNaming.SummarizeOutput | summarize.py:216-222 | an explicit `--output` wins; otherwise the name ends in `_contents.txt` for extract-only and in `_summary.md` for a summary |
| RepoNaming.SummarizeOutputNamesRepo | summarize.py:216-222 | for the owner and name `get_repo_info` parses, whichever way it cleans the last segment (so also as written): an explicit `--output` wins; otherwise extract-only writes `owner_name_contents.txt` in the working directory and summarising writes `owner_name_summary.md` directly inside the output directory; owner and name read back from the file name when the owner has no `_` |
| RepoNaming.GhExtractOutput | ghextract.py:59-60 | without a non-empty `--output`, the file ends in `_contents.txt` |
| RepoNaming.ExtractOutput | extract.py:46-47 | a given `--output` is used as is, even when empty |
| RepoNaming.OutputDefaults | ghextract.py:60 | an empty `--output` is kept by extract.py and ignored by ghextract.py; a URL ending in `/` makes ghextract.py write `_contents.txt` |
| RepoNaming.PlanRepo | ghsummarize.py:234-248 | a repository is skipped by owner exactly when its owner is ignored, and by name exactly when only its name is |
| RepoNaming.OwnerIgnoreFirst | ghextractall.py:154-159 | for an ignored owner, neither the name-ignore set nor the branch map is consulted |
| RepoNaming.FetchPlan | ghsummarize.py:234-261 | a fetched repository uses the branch configured for `owner/name`, if any, and writes `owner_name_summary.md` or `owner_name_contents.txt` in the output directory |
| DumpFormat.ExtractAllMessage | ghextractall.py:124-134 | a message is produced exactly when the read error, if any, is caught |
| DumpFormat.ExtractAllRecord | ghextractall.py:124-134 | a file yields a record exactly when its read error, if any, is caught |
| DumpFormat.ExtractAllRecordShape | ghextractall.py:122-134 | each record starts with the `Filename:` header and `Content:`, and ends in the 80-`=` rule exactly when the text was shown |
| DumpFormat.ExtractAllRecordRoundTrip | ghextractall.py:119-135 | each record reads back as text, too large, or binary, as the script classifies the file |
| DumpFormat.ExtractAllDump | ghextractall.py:119-135 | a written dump means no listed file raised an uncaught error |
| DumpFormat.ExtractAllDumpFails | ghextractall.py:119-135 | the dump fails exactly when some listed file raises an error other than UnicodeDecodeError or PermissionError |
| DumpFormat.ExtractAllDumpAppend | ghextractall.py:121-135 | the dump of a concatenated listing is the concatenation of the dumps: one record per file, in listing order |
| DumpFormat.SummarizeRecord | summarize.py:46-65 | every record starts with the file's header |
| DumpFormat.SummarizeRecordShape | summarize.py:46-65 | each record starts with the header and `Content:`, and ends in the rule exactly when the text was read |
| DumpFormat.SummarizeRecordRoundTrip | summarize.py:46-65 | each record reads back as text, too large, binary, or the bracketed error message |
| DumpFormat.SummarizeDumpAppend | summarize.py:41-67 | one record per file, in listing order |
| DumpFormat.GitBodyShape | ghextract.py:34-51 | only a text record has `Content:` on a line of its own and ends in the rule |
| DumpFormat.GitRecord | extract.py:17-41 | every record starts with the file's header |
| DumpFormat.GitRecordShape | extract.py:17-41 | each record starts with the file's header; `Content:` follows the header, and the rule ends the record, exactly when the text was read |
| DumpFormat.GitRecordRoundTrip | ghextract.py:31-51 | each record reads back as text, too large, binary, or the error message |
| DumpFormat.GitDumpAppend | ghextract.py:26-51 | one record per file, in listing order |
| Text.StripSpec | ghsummarize.py:43 | a stripped line neither starts nor ends with white space and is no longer than the line |
| Text.StripAround | ghsummarize.py:59 | stripping removes exactly the surrounding white space |
| Text.TrimLeftSpec | ghsummarize.py:43 | left trimming removes the longest prefix of trimmed characters |
| Text.TrimRightSpec | ghsummarize.py:43 | right trimming removes the longest suffix of trimmed characters |
| Text.JoinSplit | summarize.py:85 | joining the parts of `split(c)` with `c` gives the string back |
| Text.SplitJoin | summarize.py:85 | splitting a join of parts without `c` gives the parts back |
| Text.SecondToLastSegment | summarize.py:85-86 | `x/o/y` splits with `o` and `y` as the last two parts |
| Text.LastSegmentIsTail | ghsummarize.py:79 | the last segment of `x/y` is `y` |

## Left out

- HTTP: every Modrinth and GitHub request is an input. Registry answers are functions in `ModUpdate.Registry`, and the GitHub repository list is the argument of `RepoNaming.PlanRepo`. Pagination in `get_all_repos` is not part of this model.
- Zip and JSON decoding: an archive is given as its entry names and the decoded descriptor contents (`ModScan.Zip`). A JSON `id` or `name` that is not a string, and a `mods.toml` that is not UTF-8 beyond failing as a whole, are not modelled.
- `ModScan.ScanMods`: the `ThreadPoolExecutor` fan-out is modelled as a sequential pass in directory order. Records are keyed by jar name in the source; the model keeps a sequence, which has the same contents because file names in one directory are distinct.
- Backups (`backup_mods`), the OS-specific default mods directory, `argparse` and console output are not part of this model.
- `ModScan.Jars`: the `*.jar` glob is matched case-sensitively, as on POSIX systems; on Windows `glob` also matches `.JAR`.
- `ModUpdate.Install`: the update pipeline (`Install`, `UpdateMod`, `UpdateEach`, `UpdateMods`) uses the replacement that compares files, `DownloadAndReplace`. The code as written compares path strings and is modelled as `DownloadAndReplaceAsWritten`. The two agree on a filesystem that tells case apart, and whenever the two paths name different files. So the rows marked "corrected" for `DownloadAndReplaceSpec`, `NeverWithoutJar`, `ReplacedRemovesOld` and `RerunFindsCurrent` do not hold for the code as written when a new file name differs from the current one only in case on a filesystem that ignores case (see Findings).
- `ModUpdate.DownloadAndReplace`: the filesystem's refusals are the input `Faults` (files that cannot be written, files that cannot be removed). A write that fails part-way, after `open(..., 'wb')` has truncated the file, is modelled as failing before anything is written.
- `ModUpdate.FileKey`: a filesystem that ignores case is modelled as folding ASCII letters only. Unicode case folding and the Unicode normalisation of macOS file names are not modelled. Which kind of filesystem the updater runs on is the input `Settings.naming`.
- `ModUpdate.RerunFindsCurrent`: the record of the installed jar is given the old record's id and name. Rescanning the downloaded bytes is not modelled, so the lemma assumes that the new jar declares the same mod.
- `ModUpdate.ModPath`: `Path(mods_dir, name)` is modelled as `dir + "/" + name` for a directory given without a trailing `/`; pathlib normalisation is not modelled.
- Exceptions other than the ones the code names are collapsed: `Errored` in `ModUpdate.Outcome`, `LookupFailed` and `VersionsFailed` for request errors, `Failed` in `ModScan.ScanResult`. A newest version without files gives `Errored`, which is the IndexError being caught.
- `Text.Lower`: `str.lower()` is modelled for ASCII letters only; other characters are unchanged.
- `Text.IsSpace`: the character set of `str.isspace()` and `str.strip()` is written out. `str.split()` without an argument uses the same set.
- `RepoNaming.ParseRemote`: `git remote get-url` is an input (`None` when it fails), and `os.path.abspath` of the repository path is an input string.
- `RepoNaming.ExtractOutput`: extract.py's `list_git_files` changes the working directory to the repository (`os.chdir`, extract.py:8) and never changes back. With a relative repository path other than `.`, every later `os.path.join(repo_path, f)` then misses and each record shows a read error, and the default `repo_contents.txt` is written inside the repository. The dump model takes each file's outcome as an input and `ExtractOutput` states only the file name, so neither effect is modelled.
- Reading a listed file (its size, decoding and errors) is the input `DumpFormat.FileOutcome`. `git ls-files` is the input sequence.
- ghsummarize.py's own `extract_contents` (the `--- f ---` framing) and the Gemini prompts and calls are not part of this model.
- ai.py (Markdown formatting by regular expressions, and a loading animation on a thread) is not part of this model.

## Findings

| source | as written | input that shows it | evidently intended | confidence | as-written member | corrected member |
|---|---|---|---|---|---|---|
| minecraft_mod_updater.py:350-355 | after writing `new_path`, `os.remove(old_path)` runs whenever `old_path != str(new_path)` as strings | on a filesystem that ignores case (the default on Windows and macOS), current `sodium.jar` and newest file `Sodium.jar`: the write overwrites the old jar, the removal deletes it, the call returns True, and the mods directory has no jar for the mod | remove the old file only when it is a different file from the new one | not executed; medium | ModUpdate.SodiumRenameLosesJar | ModUpdate.CaseOnlyRenameKeepsJar |
| summarize.py:87 | `parts[-1].replace('.git', '')` removes every `.git` in the last segment (line 91 does the same for SSH remotes) | remote `https://github.com/alice/alice.github.io.git` gives repository name `alicehub.io` | remove only a terminal `.git`, giving `alice.github.io`, as `get_repo_name` does in the other scripts | not executed; medium | RepoNaming.PagesRemoteAsWritten | RepoNaming.HttpsRemoteRoundTrip |

=== FILE: dump_format.dfy ===
/**
 The per-file records that the repository-dump scripts write.

 Each listed file (one line of `git ls-files`) is read, and what happened is an
 abstract `FileOutcome`. A record starts with a `Filename:` header and then
 shows the text followed by a rule of 80 `=`, or one of the fixed markers for
 a file that is too large, not UTF-8, or unreadable. Three framings exist:
 - ghextractall.py (`extract_contents`): PermissionError counts as binary and
   any other error escapes, so no dump is produced at all;
 - summarize.py (`extract_contents`): markers end in a single newline and
   errors are shown in brackets;
 - ghextract.py and extract.py (`extract_git_contents`, the same framing in both):
   the marker shares the `Content:` line and errors replace it.
 */
module DumpFormat {
  import opened Wrappers
  import opened Text

  /** What reading one listed file produced. */
  datatype FileOutcome =
    | Read(content: string)          // decoded as UTF-8
    | TooLarge                       // larger than 1 MiB
    | Undecodable                    // UnicodeDecodeError
    | PermissionDenied(msg: string)  // PermissionError, with its message
    | OtherError(msg: string)        // any other exception, with its message

  datatype ListedFile = ListedFile(path: string, outcome: FileOutcome)

  /** What a record lets a reader recover about a file. */
  datatype Shown = ShownText(content: string) | ShownTooLarge | ShownBinary | ShownError(msg: string)

  const Rule: string := "================================================================================"
  const Separator: string := "\n\n" + Rule + "\n"
  const ContentLine: string := "Content:\n"
  const TooLargeMarker: string := "[File too large to display]"
  const BinaryMarker: string := "[Binary file - cannot display content]"

  function Header(path: string): string {
    "\nFilename: " + path + "\n"
  }

  /** A string whose second-to-last character is not `=` cannot end in the rule. */
  lemma NotEndsWithSeparator(x: string)
    requires |x| >= 2 && x[|x| - 2] != '='
    ensures !EndsWith(x, Separator)
  {
    assert Separator[|Separator| - 2] == '=';
    if |Separator| <= |x| {
      assert x[|x| - |Separator|..][|Separator| - 2] == x[|x| - 2];
    }
  }

  /** A two-character tail that does not start with `=` ends a marker. */
  lemma TailMarker(x: string, t: string)
    requires |t| == 2 && t[0] != '='
    ensures var y := x + t; |y| >= 2 && y[|y| - 2] != '='
  {
    var y := x + t;
    assert y[|y| - 2] == t[0];
  }

  /** A line that does not end in `=`, followed by one newline, ends a marker. */
  lemma LineMarker(m: string, t: string)
    requires m != [] && m[|m| - 1] != '=' && |t| == 1
    ensures var y := m + t; |y| >= 2 && y[|y| - 2] != '='
  {
    var y := m + t;
    assert y[|y| - 2] == m[|m| - 1];
  }

  lemma EndsWithSeparator(c: string)
    ensures EndsWith(c + Separator, Separator)
  {
    assert (c + Separator)[|c|..] == Separator;
  }

  /** Recovers the text from `text + Separator`. */
  function UnframeText(m: string): Option<string> {
    if EndsWith(m, Separator) then Some(m[..|m| - |Separator|]) else None
  }

  lemma UnframeFramed(c: string)
    ensures UnframeText(c + Separator) == Some(c)
  {
    assert (c + Separator)[|c|..] == Separator;
    assert (c + Separator)[..|c|] == c;
  }

  lemma UnframeMarker(x: string)
    requires |x| >= 2 && x[|x| - 2] != '='
    ensures UnframeText(x) == None
  {
    NotEndsWithSeparator(x);
  }

  /** Drops `prefix` from the front of `s`, if it is there. */
  function After(s: string, prefix: string): Option<string> {
    if StartsWith(s, prefix) then Some(s[|prefix|..]) else None
  }

  lemma AfterPrefix(prefix: string, rest: string)
    ensures StartsWith(prefix + rest, prefix)
    ensures After(prefix + rest, prefix) == Some(rest)
  {
    assert (prefix + rest)[..|prefix|] == prefix;
  }

  /** Drops `open` and `close` from the ends of `s`, if both are there. */
  function Between(s: string, open: string, close: string): Option<string> {
    if StartsWith(s, open) && EndsWith(s, close) && |open| + |close| <= |s|
    then Some(s[|open|..|s| - |close|])
    else None
  }

  lemma BetweenBracketed(open: string, m: string, close: string)
    ensures Between(open + m + close, open, close) == Some(m)
  {
    var s := open + m + close;
    assert s[..|open|] == open;
    assert s[|s| - |close|..] == close;
    assert s[|open|..|s| - |close|] == m;
  }

  /** A record starts with its header, and removing the header gives the body back. */
  lemma FrameRecord(path: string, body: string)
    ensures StartsWith(Header(path) + body, Header(path))
    ensures After(Header(path) + body, Header(path)) == Some(body)
  {
    AfterPrefix(Header(path), body);
  }

  /** A record opens with `p` right after its header exactly when its body opens with `p`. */
  lemma FrameOpening(path: string, body: string, p: string)
    ensures StartsWith(Header(path) + body, Header(path) + p) <==> StartsWith(body, p)
  {
    var h := Header(path);
    var r := h + body;
    if StartsWith(body, p) {
      assert r[..|h + p|] == h + body[..|p|];
    }
    if StartsWith(r, h + p) {
      assert body[..|p|] == r[..|h + p|][|h|..];
    }
  }

  /** Putting text in front keeps the rule at the end. */
  lemma FrameKeepsEnding(h: string, body: string)
    requires EndsWith(body, Separator)
    ensures EndsWith(h + body, Separator)
  {
    var r := h + body;
    assert r[|r| - |Separator|..] == body[|body| - |Separator|..];
  }

  /** Putting text in front keeps a marker ending. */
  lemma FrameKeepsMarker(h: string, body: string)
    requires |body| >= 2 && body[|body| - 2] != '='
    ensures var r := h + body; |r| >= 2 && r[|r| - 2] != '=' && !EndsWith(r, Separator)
  {
    var r := h + body;
    assert r[|r| - 2] == body[|body| - 2];
    NotEndsWithSeparator(r);
  }

  /** The rule ends a record exactly when it ends the body (bodies that do not
      end in the rule have `=` nowhere near their end). */
  lemma FrameEnding(path: string, body: string)
    requires |body| >= 2
    requires EndsWith(body, Separator) || body[|body| - 2] != '='
    ensures EndsWith(Header(path) + body, Separator) <==> EndsWith(body, Separator)
  {
    if EndsWith(body, Separator) {
      FrameKeepsEnding(Header(path), body);
    } else {
      FrameKeepsMarker(Header(path), body);
    }
  }

  /** A message after `Content:\n` either ends in the rule or ends in a marker;
      the record ends in the rule exactly when the message does. */
  lemma ContentRecordEnding(path: string, m: string)
    requires |m| >= 2
    requires EndsWith(m, Separator) || m[|m| - 2] != '='
    ensures StartsWith(Header(path) + (ContentLine + m), Header(path) + ContentLine)
    ensures EndsWith(Header(path) + (ContentLine + m), Separator) <==> EndsWith(m, Separator)
  {
    var h := Header(path);
    assert (h + (ContentLine + m))[..|h + ContentLine|] == h + ContentLine;
    if EndsWith(m, Separator) {
      FrameKeepsEnding(ContentLine, m);
      FrameKeepsEnding(h, ContentLine + m);
    } else {
      FrameKeepsMarker(ContentLine, m);
      FrameKeepsMarker(h, ContentLine + m);
    }
  }

  // ---------------------------------------------------------------------------
  // ghextractall.py

  /** What ghextractall.py shows for a file; None when the error escapes. */
  function ExtractAllView(o: FileOutcome): Option<Shown> {
    match o
    case Read(c) => Some(ShownText(c))
    case TooLarge => Some(ShownTooLarge)
    case Undecodable => Some(ShownBinary)
    case PermissionDenied(_) => Some(ShownBinary)
    case OtherError(_) => None
  }

  /** What ghextractall.py appends after `Content:\n`, or None when reading the
      file raises an error other than UnicodeDecodeError or PermissionError. */
  function ExtractAllMessage(o: FileOutcome): (m: Option<string>)
    ensures m.None? <==> o.OtherError?
  {
    match o
    case TooLarge => Some(TooLargeMarker + "\n\n")
    case Read(c) => Some(c + Separator)
    case Undecodable => Some(BinaryMarker + "\n\n")
    case PermissionDenied(_) => Some(BinaryMarker + "\n\n")
    case OtherError(_) => None
  }

  /** The record ghextractall.py appends for one file. */
  function ExtractAllRecord(f: ListedFile): (r: Option<string>)
    ensures r.None? <==> f.outcome.OtherError?
  {
    match ExtractAllMessage(f.outcome)
    case None => None
    case Some(m) => Some(Header(f.path) + (ContentLine + m))
  }

  /** A message is either a framed text or a marker line. */
  lemma ExtractAllMessageEnding(o: FileOutcome)
    requires !o.OtherError?
    ensures var m := ExtractAllMessage(o).value;
      |m| >= 2 && (EndsWith(m, Separator) <==> o.Read?) && (!o.Read? ==> m[|m| - 2] != '=')
  {
    var m := ExtractAllMessage(o).value;
    if o.Read? {
      EndsWithSeparator(o.content);
    } else if o.TooLarge? {
      TailMarker(TooLargeMarker, "\n\n");
      NotEndsWithSeparator(m);
    } else {
      TailMarker(BinaryMarker, "\n\n");
      NotEndsWithSeparator(m);
    }
  }

  /** Every record starts with its header and `Content:`, and ends in the rule
      exactly when the file was shown as text. */
  lemma ExtractAllRecordShape(f: ListedFile)
    requires !f.outcome.OtherError?
    ensures StartsWith(ExtractAllRecord(f).value, Header(f.path) + ContentLine)
    ensures EndsWith(ExtractAllRecord(f).value, Separator) <==> f.outcome.Read?
  {
    ExtractAllMessageEnding(f.outcome);
    ContentRecordEnding(f.path, ExtractAllMessage(f.outcome).value);
  }

  /** Reads back what an ghextractall.py message shows. */
  function ParseExtractAllMessage(m: string): Option<Shown> {
    match UnframeText(m)
    case Some(c) => Some(ShownText(c))
    case None =>
      if m == TooLargeMarker + "\n\n" then Some(ShownTooLarge)
      else if m == BinaryMarker + "\n\n" then Some(ShownBinary)
      else None
  }

  function ParseExtractAllRecord(path: string, rec: string): Option<Shown> {
    match After(rec, Header(path))
    case None => None
    case Some(b) =>
      match After(b, ContentLine)
      case None => None
      case Some(m) => ParseExtractAllMessage(m)
  }

  /** Every record reads back as what the script shows for the file. */
  lemma ExtractAllRecordRoundTrip(f: ListedFile)
    requires !f.outcome.OtherError?
    ensures ParseExtractAllRecord(f.path, ExtractAllRecord(f).value) == ExtractAllView(f.outcome)
  {
    var m := ExtractAllMessage(f.outcome).value;
    FrameRecord(f.path, ContentLine + m);
    AfterPrefix(ContentLine, m);
    ExtractAllMessageRoundTrip(f.outcome);
  }

  lemma ExtractAllMessageRoundTrip(o: FileOutcome)
    requires !o.OtherError?
    ensures ParseExtractAllMessage(ExtractAllMessage(o).value) == ExtractAllView(o)
  {
    if o.Read? {
      UnframeFramed(o.content);
    } else {
      ExtractAllMarkerRoundTrip(ExtractAllMessage(o).value);
    }
  }

  lemma ExtractAllMarkerRoundTrip(m: string)
    requires m == TooLargeMarker + "\n\n" || m == BinaryMarker + "\n\n"
    ensures ParseExtractAllMessage(m)
         == Some(if m == TooLargeMarker + "\n\n" then ShownTooLarge else ShownBinary)
  {
    TailMarker(if m == TooLargeMarker + "\n\n" then TooLargeMarker else BinaryMarker, "\n\n");
    UnframeMarker(m);
  }

  /** `extract_contents` of ghextractall.py: the concatenation of the records in
      listing order, or None as soon as one file's error escapes. */
  function ExtractAllDump(files: seq<ListedFile>): (r: Option<string>)
    ensures r.Some? ==> forall f :: f in files ==> !f.outcome.OtherError?
    decreases |files|
  {
    if files == [] then Some("")
    else
      match ExtractAllRecord(files[0])
      case None => None
      case Some(head) =>
        match ExtractAllDump(files[1..])
        case None => None
        case Some(tail) => Some(head + tail)
  }

  /** The dump fails exactly when some listed file raises an escaping error;
      then nothing is written for the repository. */
  lemma {:induction false} ExtractAllDumpFails(files: seq<ListedFile>)
    ensures ExtractAllDump(files).None? <==> exists i :: 0 <= i < |files| && files[i].outcome.OtherError?
    decreases |files|
  {
    if files != [] {
      ExtractAllDumpFails(files[1..]);
      if ExtractAllDump(files[1..]).None? {
        var i :| 0 <= i < |files[1..]| && files[1..][i].outcome.OtherError?;
        assert files[i + 1] == files[1..][i];
      } else {
        forall i | 1 <= i < |files| ensures !files[i].outcome.OtherError? {
          assert files[i] == files[1..][i - 1];
        }
      }
    }
  }

  // ---------------------------------------------------------------------------
  // summarize.py

  /** What summarize.py and the git dump scripts show for a file. */
  function ReportView(o: FileOutcome): Shown {
    match o
    case Read(c) => ShownText(c)
    case TooLarge => ShownTooLarge
    case Undecodable => ShownBinary
    case PermissionDenied(m) => ShownError(m)
    case OtherError(m) => ShownError(m)
  }

  const ErrorOpen: string := "[Error reading file: "

  /** What summarize.py appends after `Content:\n`. */
  function SummarizeMessage(o: FileOutcome): string {
    match o
    case TooLarge => TooLargeMarker + "\n"
    case Read(c) => c + Separator
    case Undecodable => BinaryMarker + "\n"
    case PermissionDenied(m) => ErrorOpen + m + "]\n"
    case OtherError(m) => ErrorOpen + m + "]\n"
  }

  /** The record summarize.py appends for one file. */
  function SummarizeRecord(f: ListedFile): (r: string)
    ensures StartsWith(r, Header(f.path))
  {
    FrameRecord(f.path, ContentLine + SummarizeMessage(f.outcome));
    Header(f.path) + (ContentLine + SummarizeMessage(f.outcome))
  }

  lemma SummarizeMessageEnding(o: FileOutcome)
    ensures var m := SummarizeMessage(o);
      |m| >= 2 && (EndsWith(m, Separator) <==> o.Read?) && (!o.Read? ==> m[|m| - 2] != '=')
  {
    var m := SummarizeMessage(o);
    match o
    case Read(c) =>
      EndsWithSeparator(c);
    case TooLarge =>
      assert TooLargeMarker[|TooLargeMarker| - 1] == ']';
      LineMarker(TooLargeMarker, "\n");
      NotEndsWithSeparator(m);
    case Undecodable =>
      assert BinaryMarker[|BinaryMarker| - 1] == ']';
      LineMarker(BinaryMarker, "\n");
      NotEndsWithSeparator(m);
    case PermissionDenied(msg) =>
      TailMarker(ErrorOpen + msg, "]\n");
      NotEndsWithSeparator(m);
    case OtherError(msg) =>
      TailMarker(ErrorOpen + msg, "]\n");
      NotEndsWithSeparator(m);
  }

  /** Every record starts with its header and `Content:`, and ends in the rule
      exactly when the file was shown as text. */
  lemma SummarizeRecordShape(f: ListedFile)
    ensures StartsWith(SummarizeRecord(f), Header(f.path) + ContentLine)
    ensures EndsWith(SummarizeRecord(f), Separator) <==> f.outcome.Read?
  {
    SummarizeMessageEnding(f.outcome);
    ContentRecordEnding(f.path, SummarizeMessage(f.outcome));
  }

  function ParseSummarizeMessage(m: string): Option<Shown> {
    match UnframeText(m)
    case Some(c) => Some(ShownText(c))
    case None =>
      if m == TooLargeMarker + "\n" then Some(ShownTooLarge)
      else if m == BinaryMarker + "\n" then Some(ShownBinary)
      else
        match Between(m, ErrorOpen, "]\n")
        case Some(msg) => Some(ShownError(msg))
        case None => None
  }

  /** Reads back what a summarize.py record shows. */
  function ParseSummarizeRecord(path: string, rec: string): Option<Shown> {
    match After(rec, Header(path))
    case None => None
    case Some(b) =>
      match After(b, ContentLine)
      case None => None
      case Some(m) => ParseSummarizeMessage(m)
  }

  lemma SummarizeRecordRoundTrip(f: ListedFile)
    ensures ParseSummarizeRecord(f.path, SummarizeRecord(f)) == Some(ReportView(f.outcome))
  {
    var m := SummarizeMessage(f.outcome);
    FrameRecord(f.path, ContentLine + m);
    AfterPrefix(ContentLine, m);
    SummarizeMessageRoundTrip(f.outcome);
  }

  lemma SummarizeMessageRoundTrip(o: FileOutcome)
    ensures ParseSummarizeMessage(SummarizeMessage(o)) == Some(ReportView(o))
  {
    if o.Read? {
      UnframeFramed(o.content);
    } else if o.TooLarge? || o.Undecodable? {
      SummarizeMarkerRoundTrip(SummarizeMessage(o));
    } else {
      SummarizeErrorRoundTrip(o.msg);
    }
  }

  lemma SummarizeMarkerRoundTrip(m: string)
    requires m == TooLargeMarker + "\n" || m == BinaryMarker + "\n"
    ensures ParseSummarizeMessage(m)
         == Some(if m == TooLargeMarker + "\n" then ShownTooLarge else ShownBinary)
  {
    var x := if m == TooLargeMarker + "\n" then TooLargeMarker else BinaryMarker;
    assert x[|x| - 1] == ']';
    LineMarker(x, "\n");
    UnframeMarker(m);
  }

  lemma SummarizeErrorRoundTrip(msg: string)
    ensures ParseSummarizeMessage(ErrorOpen + msg + "]\n") == Some(ShownError(msg))
  {
    var m := ErrorOpen + msg + "]\n";
    TailMarker(ErrorOpen + msg, "]\n");
    UnframeMarker(m);
    assert m[1] == 'E';
    assert (TooLargeMarker + "\n")[1] == 'F';
    assert (BinaryMarker + "\n")[1] == 'B';
    BetweenBracketed(ErrorOpen, msg, "]\n");
  }

  /** `extract_contents` of summarize.py: one record per listed file, in order. */
  function SummarizeDump(files: seq<ListedFile>): string
    decreases |files|
  {
    if files == [] then "" else SummarizeRecord(files[0]) + SummarizeDump(files[1..])
  }

  // ---------------------------------------------------------------------------
  // ghextract.py and extract.py

  const GitTooLarge: string := "Content: " + TooLargeMarker + "\n\n"
  const GitBinary: string := "Content: " + BinaryMarker + "\n\n"
  const GitErrorOpen: string := "Error reading file: "

  /** What `extract_git_contents` writes after the `Filename:` line. */
  function GitBody(o: FileOutcome): string {
    match o
    case TooLarge => GitTooLarge
    case Read(c) => ContentLine + (c + Separator)
    case Undecodable => GitBinary
    case PermissionDenied(m) => GitErrorOpen + m + "\n\n"
    case OtherError(m) => GitErrorOpen + m + "\n\n"
  }

  /** The record `extract_git_contents` writes for one file. */
  function GitRecord(f: ListedFile): (r: string)
    ensures StartsWith(r, Header(f.path))
  {
    FrameRecord(f.path, GitBody(f.outcome));
    Header(f.path) + GitBody(f.outcome)
  }

  /** Only a text body opens with `Content:` on a line of its own, and only a
      text body ends in the rule. */
  lemma GitBodyShape(o: FileOutcome)
    ensures var b := GitBody(o);
      |b| >= 2 && (StartsWith(b, ContentLine) <==> o.Read?)
      && (EndsWith(b, Separator) <==> o.Read?) && (!o.Read? ==> b[|b| - 2] != '=')
  {
    var b := GitBody(o);
    match o
    case Read(c) =>
      AfterPrefix(ContentLine, c + Separator);
      EndsWithSeparator(c);
      FrameKeepsEnding(ContentLine, c + Separator);
    case TooLarge =>
      assert b[8] != ContentLine[8];
      TailMarker("Content: " + TooLargeMarker, "\n\n");
      NotEndsWithSeparator(b);
    case Undecodable =>
      assert b[8] != ContentLine[8];
      TailMarker("Content: " + BinaryMarker, "\n\n");
      NotEndsWithSeparator(b);
    case PermissionDenied(msg) =>
      assert b[0] != ContentLine[0];
      TailMarker(GitErrorOpen + msg, "\n\n");
      NotEndsWithSeparator(b);
    case OtherError(msg) =>
      assert b[0] != ContentLine[0];
      TailMarker(GitErrorOpen + msg, "\n\n");
      NotEndsWithSeparator(b);
  }

  /** Every record starts with its header; `Content:` follows the header, and
      the rule ends the record, exactly when the file was shown as text. */
  lemma GitRecordShape(f: ListedFile)
    ensures StartsWith(GitRecord(f), Header(f.path))
    ensures StartsWith(GitRecord(f), Header(f.path) + ContentLine) <==> f.outcome.Read?
    ensures EndsWith(GitRecord(f), Separator) <==> f.outcome.Read?
  {
    GitBodyShape(f.outcome);
    FrameOpening(f.path, GitBody(f.outcome), ContentLine);
    FrameRecord(f.path, GitBody(f.outcome));
    FrameEnding(f.path, GitBody(f.outcome));
  }

  function ParseGitBody(b: string): Option<Shown> {
    if b == GitTooLarge then Some(ShownTooLarge)
    else if b == GitBinary then Some(ShownBinary)
    else
      match After(b, ContentLine)
      case Some(m) =>
        (match UnframeText(m)
         case Some(c) => Some(ShownText(c))
         case None => None)
      case None =>
        match Between(b, GitErrorOpen, "\n\n")
        case Some(msg) => Some(ShownError(msg))
        case None => None
  }

  /** Reads back what an `extract_git_contents` record shows. */
  function ParseGitRecord(path: string, rec: string): Option<Shown> {
    match After(rec, Header(path))
    case None => None
    case Some(b) => ParseGitBody(b)
  }

  lemma GitRecordRoundTrip(f: ListedFile)
    ensures ParseGitRecord(f.path, GitRecord(f)) == Some(ReportView(f.outcome))
  {
    FrameRecord(f.path, GitBody(f.outcome));
    GitBodyRoundTrip(f.outcome);
  }

  lemma GitBodyRoundTrip(o: FileOutcome)
    ensures ParseGitBody(GitBody(o)) == Some(ReportView(o))
  {
    match o
    case Read(c) =>
      GitTextRoundTrip(c);
    case TooLarge =>
    case Undecodable =>
    case PermissionDenied(msg) =>
      GitErrorRoundTrip(msg);
    case OtherError(msg) =>
      GitErrorRoundTrip(msg);
  }

  lemma GitTextRoundTrip(c: string)
    ensures ParseGitBody(ContentLine + (c + Separator)) == Some(ShownText(c))
  {
    var b := ContentLine + (c + Separator);
    assert b[8] == '\n';
    assert GitTooLarge[8] == ' ';
    assert GitBinary[8] == ' ';
    AfterPrefix(ContentLine, c + Separator);
    UnframeFramed(c);
  }

  lemma GitErrorRoundTrip(msg: string)
    ensures ParseGitBody(GitErrorOpen + msg + "\n\n") == Some(ShownError(msg))
  {
    var b := GitErrorOpen + msg + "\n\n";
    assert b[0] == 'E';
    assert GitTooLarge[0] == 'C' && GitBinary[0] == 'C' && ContentLine[0] == 'C';
    assert !StartsWith(b, ContentLine);
    BetweenBracketed(GitErrorOpen, msg, "\n\n");
  }

  /** `extract_git_contents` of ghextract.py and extract.py: one record per
      listed file, in order. */
  function GitDump(files: seq<ListedFile>): string
    decreases |files|
  {
    if files == [] then "" else GitRecord(files[0]) + GitDump(files[1..])
  }

  // ---------------------------------------------------------------------------
  // Shape of whole dumps

  /** Dumps of consecutive listings concatenate: records keep listing order and
      no record depends on another file. */
  lemma {:induction false} SummarizeDumpAppend(a: seq<ListedFile>, b: seq<ListedFile>)
    ensures SummarizeDump(a + b) == SummarizeDump(a) + SummarizeDump(b)
    decreases |a|
  {
    if a == [] {
      assert a + b == b;
    } else {
      assert (a + b)[0] == a[0];
      assert (a + b)[1..] == a[1..] + b;
      SummarizeDumpAppend(a[1..], b);
    }
  }

  lemma {:induction false} GitDumpAppend(a: seq<ListedFile>, b: seq<ListedFile>)
    ensures GitDump(a + b) == GitDump(a) + GitDump(b)
    decreases |a|
  {
    if a == [] {
      assert a + b == b;
    } else {
      assert (a + b)[0] == a[0];
      assert (a + b)[1..] == a[1..] + b;
      GitDumpAppend(a[1..], b);
    }
  }

  lemma {:induction false} ExtractAllDumpAppend(a: seq<ListedFile>, b: seq<ListedFile>)
    requires ExtractAllDump(a).Some? && ExtractAllDump(b).Some?
    ensures ExtractAllDump(a + b) == Some(ExtractAllDump(a).value + ExtractAllDump(b).value)
    decreases |a|
  {
    if a == [] {
      assert a + b == b;
      assert ExtractAllDump(a).value + ExtractAllDump(b).value == ExtractAllDump(b).value;
    } else {
      assert (a + b)[0] == a[0];
      assert (a + b)[1..] == a[1..] + b;
      ExtractAllDumpAppend(a[1..], b);
      var rec := ExtractAllRecord(a[0]).value;
      var x := ExtractAllDump(a[1..]).value;
      var y := ExtractAllDump(b).value;
      assert rec + (x + y) == (rec + x) + y;
    }
  }
}

=== FILE: mod_resolve.dfy ===
/**
 The search fallback of `_search_and_update_mod` in minecraft_mod_updater.py:
 the search terms of a mod, the score of a search hit, the best hit of one
 term's results, and the walk over the terms that accepts the first term whose
 best hit scores at least 5. The registry's search endpoint is a function
 argument.
 */
module ModResolve {
  import opened Wrappers
  import opened Text

  /** A search hit of the registry. */
  datatype Hit = Hit(slug: string, title: string, projectId: string)

  /** The answer of the search endpoint for one term. */
  datatype SearchResponse = SearchHits(hits: seq<Hit>) | SearchError

  /** `[mod_id]`, followed by `mod_name` when it is non-empty and differs. */
  function SearchTerms(id: string, name: string): (terms: seq<string>)
    ensures 1 <= |terms| <= 2 && terms[0] == id
    ensures |terms| == 2 <==> name != "" && name != id
    ensures |terms| == 2 ==> terms[1] == name
  {
    [id] + (if name != "" && name != id then [name] else [])
  }

  /** The score of a hit for a mod: 10 when the slug equals the lowered id,
      10 when the lowered title equals the lowered name, 5 when the lowered
      id occurs in the slug, 5 when the lowered name occurs in the lowered
      title. The slug itself is not lowered. */
  function Score(h: Hit, id: string, name: string): (s: int)
    ensures 0 <= s <= 30 && s % 5 == 0
  {
    (if h.slug == Lower(id) then 10 else 0)
    + (if Lower(h.title) == Lower(name) then 10 else 0)
    + (if Contains(h.slug, Lower(id)) then 5 else 0)
    + (if Contains(Lower(h.title), Lower(name)) then 5 else 0)
  }

  lemma ContainsSelf(s: string)
    ensures Contains(s, s)
  {
    assert s[..|s|] == s;
  }

  /** A hit earns some points exactly when the lowered id occurs in its slug
      or the lowered name in its lowered title: an exact match is also an
      occurrence, so it always comes with the 5-point bonus. */
  lemma ScorePositive(h: Hit, id: string, name: string)
    ensures Score(h, id, name) > 0 <==> Contains(h.slug, Lower(id)) || Contains(Lower(h.title), Lower(name))
    ensures h.slug == Lower(id) ==> Score(h, id, name) >= 15
    ensures Lower(h.title) == Lower(name) ==> Score(h, id, name) >= 15
  {
    ContainsSelf(h.slug);
    ContainsSelf(Lower(h.title));
  }

  /** The scores of a term's hits, in the registry's order. */
  function Scores(hits: seq<Hit>, id: string, name: string): (scores: seq<int>)
    ensures |scores| == |hits|
    ensures forall i :: 0 <= i < |hits| ==> scores[i] == Score(hits[i], id, name)
  {
    seq(|hits|, i requires 0 <= i < |hits| => Score(hits[i], id, name))
  }

  /** `i` holds the first of the greatest scores, and that score is positive. */
  predicate FirstMaximum(scores: seq<int>, i: nat) {
    && i < |scores|
    && scores[i] > 0
    && (forall j :: 0 <= j < i ==> scores[j] < scores[i])
    && (forall j :: i < j < |scores| ==> scores[j] <= scores[i])
  }

  /** The index the loop `if score > best_score` ends with, starting from a
      best score of 0: the hits are visited in order and only a strictly
      greater score replaces the best. */
  function BestIndex(scores: seq<int>): (b: Option<nat>)
    ensures b.Some? ==> b.value < |scores| && scores[b.value] > 0
    decreases |scores|
  {
    if scores == [] then None
    else
      var n := |scores| - 1;
      var prev := BestIndex(scores[..n]);
      var bestScore := if prev.None? then 0 else scores[prev.value];
      if scores[n] > bestScore then Some(n) else prev
  }

  /** The loop picks the first hit with the greatest score, and picks none
      exactly when no score is positive. */
  lemma {:induction false} BestIndexIsFirstMaximum(scores: seq<int>)
    ensures BestIndex(scores).Some? ==> FirstMaximum(scores, BestIndex(scores).value)
    ensures BestIndex(scores).None? <==> forall j :: 0 <= j < |scores| ==> scores[j] <= 0
    decreases |scores|
  {
    if scores != [] {
      var n := |scores| - 1;
      var pre := scores[..n];
      BestIndexIsFirstMaximum(pre);
      assert forall j :: 0 <= j < n ==> pre[j] == scores[j];
    }
  }

  /** At most one index is the first maximum. */
  lemma FirstMaximumUnique(scores: seq<int>, i: nat, k: nat)
    requires FirstMaximum(scores, i) && FirstMaximum(scores, k)
    ensures i == k
  {
  }

  /** Lines 272-289 as a loop over the hits: the best hit and its score. */
  method BestMatch(hits: seq<Hit>, id: string, name: string) returns (best: Option<nat>, bestScore: int)
    ensures best.Some? ==> FirstMaximum(Scores(hits, id, name), best.value) && bestScore == Score(hits[best.value], id, name)
    ensures best.None? <==> forall j :: 0 <= j < |hits| ==> Score(hits[j], id, name) == 0
    ensures best.None? ==> bestScore == 0
  {
    var scores := Scores(hits, id, name);
    best, bestScore := None, 0;
    var k := 0;
    while k < |hits|
      invariant 0 <= k <= |hits|
      invariant best.None? ==> bestScore == 0 && forall j :: 0 <= j < k ==> scores[j] == 0
      invariant best.Some? ==> best.value < k && bestScore == scores[best.value] && bestScore > 0
      invariant best.Some? ==> forall j :: 0 <= j < best.value ==> scores[j] < bestScore
      invariant best.Some? ==> forall j :: best.value < j < k ==> scores[j] <= bestScore
    {
      var score := Score(hits[k], id, name);
      if score > bestScore {
        best, bestScore := Some(k), score;
      }
      k := k + 1;
    }
  }

  /** A term's results are accepted when its best hit exists and scores at
      least 5. */
  predicate Accepts(resp: SearchResponse, id: string, name: string) {
    && resp.SearchHits?
    && resp.hits != []
    && var b := BestIndex(Scores(resp.hits, id, name));
       b.Some? && Score(resp.hits[b.value], id, name) >= 5
  }

  /** Since every positive score is at least 5, a term is accepted exactly
      when one of its hits has a positive score. */
  lemma AcceptsIffPositive(resp: SearchResponse, id: string, name: string)
    requires resp.SearchHits?
    ensures Accepts(resp, id, name) <==>
      exists j :: 0 <= j < |resp.hits| && Score(resp.hits[j], id, name) > 0
  {
    var scores := Scores(resp.hits, id, name);
    BestIndexIsFirstMaximum(scores);
    if exists j :: 0 <= j < |resp.hits| && Score(resp.hits[j], id, name) > 0 {
      var j :| 0 <= j < |resp.hits| && Score(resp.hits[j], id, name) > 0;
      assert scores[j] > 0;
    }
  }

  /** The result of the search fallback's term loop. */
  datatype Resolution =
    | Resolved(hit: Hit, term: nat)
    | Unresolved
    | SearchFailed(term: nat)

  /** The term loop from term `k` on: a search error raises out of the loop,
      an accepted term stops it, and the best hit is reset for every term. */
  function ResolveFrom(search: string -> SearchResponse, terms: seq<string>, k: nat, id: string, name: string): (r: Resolution)
    requires k <= |terms|
    ensures r.Resolved? ==> k <= r.term < |terms|
    ensures r.SearchFailed? ==> k <= r.term < |terms| && search(terms[r.term]).SearchError?
    decreases |terms| - k
  {
    if k == |terms| then Unresolved
    else
      var resp := search(terms[k]);
      if resp.SearchError? then SearchFailed(k)
      else if Accepts(resp, id, name) then
        Resolved(resp.hits[BestIndex(Scores(resp.hits, id, name)).value], k)
      else ResolveFrom(search, terms, k + 1, id, name)
  }

  /** The search fallback for a mod. */
  function Resolve(search: string -> SearchResponse, id: string, name: string): Resolution {
    ResolveFrom(search, SearchTerms(id, name), 0, id, name)
  }

  /** Term `j` was searched and not accepted. */
  predicate Passed(search: string -> SearchResponse, terms: seq<string>, j: nat, id: string, name: string)
    requires j < |terms|
  {
    search(terms[j]).SearchHits? && !Accepts(search(terms[j]), id, name)
  }

  /** An accepted hit is the first maximum of its term's results and scores
      at least 5. */
  lemma {:induction false} ResolvedIsBest(search: string -> SearchResponse, terms: seq<string>, k: nat, id: string, name: string)
    requires k <= |terms|
    ensures var r := ResolveFrom(search, terms, k, id, name);
      r.Resolved? ==>
        && Accepts(search(terms[r.term]), id, name)
        && var hits := search(terms[r.term]).hits;
           exists i: nat :: FirstMaximum(Scores(hits, id, name), i) && hits[i] == r.hit && Score(hits[i], id, name) >= 5
    decreases |terms| - k
  {
    if k < |terms| {
      var resp := search(terms[k]);
      if resp.SearchHits? {
        if Accepts(resp, id, name) {
          BestIndexIsFirstMaximum(Scores(resp.hits, id, name));
        } else {
          ResolvedIsBest(search, terms, k + 1, id, name);
        }
      }
    }
  }

  /** The loop stops at the first term whose search fails or is accepted:
      every earlier term was searched and passed. */
  lemma {:induction false} StopsAtFirst(search: string -> SearchResponse, terms: seq<string>, k: nat, id: string, name: string)
    requires k <= |terms|
    ensures var r := ResolveFrom(search, terms, k, id, name);
      && (r.Resolved? || r.SearchFailed? ==> forall j :: k <= j < r.term ==> Passed(search, terms, j, id, name))
      && (r.SearchFailed? ==> search(terms[r.term]).SearchError?)
      && (r.Resolved? ==> Accepts(search(terms[r.term]), id, name))
    decreases |terms| - k
  {
    if k < |terms| && search(terms[k]).SearchHits? && !Accepts(search(terms[k]), id, name) {
      StopsAtFirst(search, terms, k + 1, id, name);
    }
  }

  /** No match is reported exactly when every term was searched and passed. */
  lemma {:induction false} UnresolvedIffAllPassed(search: string -> SearchResponse, terms: seq<string>, k: nat, id: string, name: string)
    requires k <= |terms|
    ensures ResolveFrom(search, terms, k, id, name).Unresolved? <==>
      forall j :: k <= j < |terms| ==> Passed(search, terms, j, id, name)
    decreases |terms| - k
  {
    if k < |terms| {
      if Passed(search, terms, k, id, name) {
        UnresolvedIffAllPassed(search, terms, k + 1, id, name);
      } else {
        assert !ResolveFrom(search, terms, k, id, name).Unresolved?;
      }
    }
  }

  /** The first search term is the mod's identifier: a mod whose name equals
      its identifier is searched once. */
  lemma SingleTermWhenNameIsId(search: string -> SearchResponse, id: string)
    ensures Resolve(search, id, id) == ResolveFrom(search, [id], 0, id, id)
  {
  }

  /** Two hits that tie at 15: the one with the exact slug and the one with
      the exact title. The loop keeps the first. */
  lemma TieKeepsFirst(id: string, name: string, p1: string, p2: string, other: string, bar: string)
    requires id == "foo-mod" && name == "Foo Mod" && other == "other" && bar == "Bar"
    ensures var hits := [Hit(id, bar, p1), Hit(other, name, p2)];
      && Score(hits[0], id, name) == 15 && Score(hits[1], id, name) == 15
      && BestIndex(Scores(hits, id, name)) == Some(0)
  {
    var hits := [Hit(id, bar, p1), Hit(other, name, p2)];
    assert Lower(id) == id;
    assert Lower(bar) == "bar";
    assert Lower(name) == "foo mod";
    ContainsSelf(id);
    ContainsSelf("foo mod");
    NotContainedInShorter("bar", "foo mod");
    NotContainedInShorter(other, id);
    var scores := Scores(hits, id, name);
    assert scores[..1][..0] == [];
  }

  /** A longer string does not occur in a shorter one. */
  lemma {:induction false} NotContainedInShorter(hay: string, needle: string)
    requires |hay| < |needle|
    ensures !Contains(hay, needle)
    decreases |hay|
  {
    if hay != [] {
      NotContainedInShorter(hay[1..], needle);
    }
  }
}

=== FILE: mod_scan.dfy ===
/**
 Mod identification in minecraft_mod_updater.py: `process_mod_file` reads one
 descriptor from a mod archive, in the fixed order `fabric.mod.json`,
 `META-INF/mods.toml`, `mcmod.info`, and keeps a record of the mod when it
 found an identifier and the loader filter admits it; `scan_mods` does this
 for every `*.jar` of the mods directory.

 Archives and JSON documents are given already decoded; a decoding failure is
 a constructor of its own, because the code lets it raise, which drops the
 archive.
 */
module ModScan {
  import opened Wrappers
  import opened Text

  datatype Loader = Fabric | Forge

  /** `fabric.mod.json` as `json.load` returns it: `.get` needs an object. */
  datatype FabricJson =
    | FabricUnparsable
    | FabricNotObject
    | FabricObject(id: Option<string>, name: Option<string>)

  /** One element of an `mcmod.info` mod list. */
  datatype McmodItem =
    | McmodObject(modid: Option<string>, name: Option<string>)
    | McmodNotObject

  /** `mcmod.info`: a list of mods, an object that may hold `modList`, or any
      other JSON value. */
  datatype McmodJson =
    | McmodUnparsable
    | McmodArray(items: seq<McmodItem>)
    | McmodDict(modList: Option<seq<McmodItem>>)
    | McmodScalar

  /** `META-INF/mods.toml` after `decode('utf-8')`. */
  datatype TomlBytes = TomlUndecodable | TomlText(text: string)

  /** An archive's entry names and the contents of the three descriptors
      (a content is read only when its entry is listed). */
  datatype Zip = Zip(entries: seq<string>, fabric: FabricJson, modsToml: TomlBytes, mcmod: McmodJson)

  /** A file of the mods directory; `zip` is None when it is not a readable
      zip archive. */
  datatype Archive = Archive(path: string, name: string, zip: Option<Zip>)

  /** The three variables `process_mod_file` fills in. */
  datatype Descriptor = Descriptor(id: Option<string>, name: Option<string>, loader: Option<Loader>)

  /** An entry of `mods_data`. */
  datatype ModRecord = ModRecord(path: string, modId: string, modName: string, currentFile: string, loader: Loader)

  /** What `process_mod_file` does with one archive: stores a record, prints
      that it found no identifier (or the loader did not match), or prints
      the exception that stopped it. */
  datatype ScanResult = Kept(rec: ModRecord) | Unidentified | Failed

  const FabricEntry: string := "fabric.mod.json"
  const TomlEntry: string := "META-INF/mods.toml"
  const McmodEntry: string := "mcmod.info"

  // ---------------------------------------------------------------------------
  // mods.toml

  predicate IsQuote(c: char) {
    c == '"' || c == '\''
  }

  /** `line.split('=')[1].strip().strip('"\'')`: None stands for the
      IndexError of a split with a single part, which happens exactly for a
      line without `=`. */
  function FieldValue(line: string): (v: Option<string>)
    ensures v.None? <==> '=' !in line
  {
    SplitHasSecond(line, '=');
    var parts := Split(line, '=');
    if |parts| < 2 then None else Some(Trim(Strip(parts[1]), IsQuote))
  }

  /** The scan state: mod_id and mod_name so far. */
  type Fields = (Option<string>, Option<string>)

  predicate BothSet(f: Fields) {
    Present(f.0) && Present(f.1)
  }

  /** One line of the scan: `modId` is checked before `displayName`; None when
      the matching line has no `=`. */
  function ScanLine(line: string, f: Fields): Option<Fields> {
    if StartsWith(line, "modId") then
      match FieldValue(line)
      case None => None
      case Some(v) => Some((Some(v), f.1))
    else if StartsWith(line, "displayName") then
      match FieldValue(line)
      case None => None
      case Some(v) => Some((f.0, Some(v)))
    else Some(f)
  }

  /** The loop over `content.split('\n')`: after each line the scan stops
      once both fields are non-empty; None when a line raised. */
  function ScanToml(lines: seq<string>, f: Fields): Option<Fields>
    decreases |lines|
  {
    if lines == [] then Some(f)
    else
      match ScanLine(lines[0], f)
      case None => None
      case Some(g) => if BothSet(g) then Some(g) else ScanToml(lines[1..], g)
  }

  /** Lines after the one that completes both fields are never read: a scan
      that ends with both fields set gives the same result whatever follows. */
  lemma {:induction false} ScanTomlStops(lines: seq<string>, more: seq<string>, f: Fields)
    requires !BothSet(f)
    requires ScanToml(lines, f).Some? && BothSet(ScanToml(lines, f).value)
    ensures ScanToml(lines + more, f) == ScanToml(lines, f)
    decreases |lines|
  {
    assert lines != [];
    assert (lines + more)[0] == lines[0];
    var g := ScanLine(lines[0], f).value;
    if !BothSet(g) {
      assert (lines + more)[1..] == lines[1..] + more;
      ScanTomlStops(lines[1..], more, g);
    }
  }

  /** A raise ends the scan: whatever follows a failing prefix is not read. */
  lemma {:induction false} ScanTomlFailed(lines: seq<string>, more: seq<string>, f: Fields)
    requires ScanToml(lines, f).None?
    ensures ScanToml(lines + more, f).None?
    decreases |lines|
  {
    assert lines != [];
    assert (lines + more)[0] == lines[0];
    if ScanLine(lines[0], f).Some? {
      var g := ScanLine(lines[0], f).value;
      assert (lines + more)[1..] == lines[1..] + more;
      ScanTomlFailed(lines[1..], more, g);
    }
  }

  /** A `modId` (or `displayName`) line without `=`, reached before both
      fields are set, makes the scan raise. */
  lemma MissingEqualsRaises(line: string, rest: seq<string>, f: Fields)
    requires StartsWith(line, "modId") || StartsWith(line, "displayName")
    requires '=' !in line
    ensures ScanToml([line] + rest, f).None?
  {
    assert ([line] + rest)[0] == line;
  }

  /** A `key = "value"` line yields the value, whatever white space surrounds
      the `=` and the quoted text. */
  lemma FieldValueRoundTrip(key: string, sp1: string, sp2: string, v: string, sp3: string)
    requires '=' !in key && '=' !in sp1 && '=' !in sp2 && '=' !in v && '=' !in sp3
    requires forall i :: 0 <= i < |sp2| ==> IsSpace(sp2[i])
    requires forall i :: 0 <= i < |sp3| ==> IsSpace(sp3[i])
    requires v != [] && !IsQuote(v[0]) && !IsQuote(v[|v| - 1])
    ensures FieldValue(key + sp1 + "=" + sp2 + "\"" + v + "\"" + sp3) == Some(v)
  {
    var quoted := "\"" + v + "\"";
    var rhs := sp2 + quoted + sp3;
    var line := key + sp1 + "=" + sp2 + "\"" + v + "\"" + sp3;
    assert line == (key + sp1) + ['='] + rhs;
    assert '=' !in key + sp1;
    assert '=' !in quoted;
    assert '=' !in rhs;
    SplitConcat(key + sp1, rhs, '=');
    SplitNoSep(key + sp1, '=');
    SplitNoSep(rhs, '=');
    StripAround(sp2, quoted, sp3);
    QuotesRemoved(v);
  }

  lemma QuotesRemoved(v: string)
    requires v != [] && !IsQuote(v[0]) && !IsQuote(v[|v| - 1])
    ensures Trim("\"" + v + "\"", IsQuote) == v
  {
    assert "\"" + v + "\"" == "\"" + (v + "\"");
    TrimLeftPrefix("\"", v + "\"", IsQuote);
    TrimRightSuffix(v, "\"", IsQuote);
  }

  /** A line with a single `=`: the value is everything after it, stripped of
      white space and then of quotes. */
  lemma FieldValueOneEquals(key: string, a: string)
    requires '=' !in key && '=' !in a
    ensures FieldValue(key + "=" + a) == Some(Trim(Strip(a), IsQuote))
  {
    assert key + "=" + a == key + ['='] + a;
    SplitConcat(key, a, '=');
    SplitNoSep(key, '=');
    SplitNoSep(a, '=');
  }

  /** Only the text between the first and the second `=` is the value. */
  lemma FieldValueSecondSegment(key: string, a: string, b: string)
    requires '=' !in key && '=' !in a
    ensures FieldValue(key + "=" + a + "=" + b) == Some(Trim(Strip(a), IsQuote))
  {
    var line := key + "=" + a + "=" + b;
    assert line == key + ['='] + (a + ['='] + b);
    SplitConcat(key, a + ['='] + b, '=');
    SplitConcat(a, b, '=');
    SplitNoSep(key, '=');
    SplitNoSep(a, '=');
  }

  // ---------------------------------------------------------------------------
  // Descriptors

  /** `json.load` raising, or `data.get` on something other than an object,
      leaves no descriptor. */
  function ReadFabric(j: FabricJson): (d: Option<Descriptor>)
    ensures d.Some? <==> j.FabricObject?
    ensures d.Some? ==> d.value.loader == Some(Fabric)
  {
    match j
    case FabricUnparsable => None
    case FabricNotObject => None
    case FabricObject(id, name) => Some(Descriptor(id, name, Some(Fabric)))
  }

  /** Bytes that are not UTF-8, or a field line without `=`, leave no descriptor. */
  function ReadToml(t: TomlBytes): (d: Option<Descriptor>)
    ensures t.TomlUndecodable? ==> d.None?
    ensures d.Some? ==> d.value.loader == Some(Forge)
  {
    match t
    case TomlUndecodable => None
    case TomlText(text) =>
      match ScanToml(Split(text, '\n'), (None, None))
      case None => None
      case Some((id, name)) => Some(Descriptor(id, name, Some(Forge)))
  }

  function ItemDescriptor(item: McmodItem): Option<Descriptor> {
    match item
    case McmodObject(id, name) => Some(Descriptor(id, name, Some(Forge)))
    case McmodNotObject => None
  }

  /** A non-empty list uses its first element, an object with `modList` uses
      the first element of that list (raising when it is empty), and any
      other value leaves both fields unset. */
  function ReadMcmod(j: McmodJson): (d: Option<Descriptor>)
    ensures d.Some? ==> d.value.loader == Some(Forge)
  {
    match j
    case McmodUnparsable => None
    case McmodArray(items) =>
      if items != [] then ItemDescriptor(items[0]) else Some(Descriptor(None, None, Some(Forge)))
    case McmodDict(None) => Some(Descriptor(None, None, Some(Forge)))
    case McmodDict(Some(items)) =>
      if items != [] then ItemDescriptor(items[0]) else None
    case McmodScalar => Some(Descriptor(None, None, Some(Forge)))
  }

  /** The descriptor of an archive, from the first listed entry of the three;
      None when reading it raised. */
  function ReadDescriptor(z: Zip): (d: Option<Descriptor>)
    ensures d.Some? && d.value.loader.None? ==>
      FabricEntry !in z.entries && TomlEntry !in z.entries && McmodEntry !in z.entries
  {
    if FabricEntry in z.entries then ReadFabric(z.fabric)
    else if TomlEntry in z.entries then ReadToml(z.modsToml)
    else if McmodEntry in z.entries then ReadMcmod(z.mcmod)
    else Some(Descriptor(None, None, None))
  }

  /** Exactly one descriptor is read: the result depends only on the first
      listed entry of the priority order, and its loader tag is `fabric` for
      `fabric.mod.json` and `forge` for the other two. */
  lemma DescriptorPriority(z: Zip, fabric: FabricJson, toml: TomlBytes, mcmod: McmodJson)
    ensures FabricEntry in z.entries ==>
      ReadDescriptor(z) == ReadFabric(z.fabric) == ReadDescriptor(z.(modsToml := toml, mcmod := mcmod))
    ensures FabricEntry !in z.entries && TomlEntry in z.entries ==>
      ReadDescriptor(z) == ReadToml(z.modsToml) == ReadDescriptor(z.(fabric := fabric, mcmod := mcmod))
    ensures FabricEntry !in z.entries && TomlEntry !in z.entries && McmodEntry in z.entries ==>
      ReadDescriptor(z) == ReadMcmod(z.mcmod) == ReadDescriptor(z.(fabric := fabric, modsToml := toml))
    ensures ReadDescriptor(z).Some? ==>
      (ReadDescriptor(z).value.loader == Some(Fabric) <==> FabricEntry in z.entries)
  {
  }

  // ---------------------------------------------------------------------------
  // Record admission

  /** The loader filter: no filter admits every loader, including none. */
  predicate Admits(filter: Option<Loader>, loader: Option<Loader>) {
    filter.None? || Some(filter.value) == loader
  }

  /** `process_mod_file`: a record is stored when the identifier is
      non-empty and the filter admits the loader; its name falls back to the
      identifier and its current file is the archive's own name. */
  function ProcessModFile(a: Archive, filter: Option<Loader>): (r: ScanResult)
    ensures r.Kept? ==> r.rec.path == a.path && r.rec.currentFile == a.name && r.rec.modId != ""
    ensures r.Kept? ==> filter.None? || filter.value == r.rec.loader
    ensures r.Kept? ==> r.rec.modName != ""
  {
    match a.zip
    case None => Failed
    case Some(z) =>
      match ReadDescriptor(z)
      case None => Failed
      case Some(d) =>
        if Present(d.id) && Admits(filter, d.loader) then
          assert d.loader.Some?;
          Kept(ModRecord(a.path, d.id.value, if Present(d.name) then d.name.value else d.id.value, a.name, d.loader.value))
        else Unidentified
  }

  /** A record is kept exactly when the descriptor was read, names a
      non-empty identifier and the filter admits its loader; the stored name
      is the descriptor's name when non-empty, else the identifier. */
  lemma ProcessModFileKept(a: Archive, filter: Option<Loader>)
    ensures ProcessModFile(a, filter).Kept? <==>
      a.zip.Some? && ReadDescriptor(a.zip.value).Some?
      && Present(ReadDescriptor(a.zip.value).value.id)
      && Admits(filter, ReadDescriptor(a.zip.value).value.loader)
    ensures ProcessModFile(a, filter).Kept? ==>
      var d := ReadDescriptor(a.zip.value).value;
      var r := ProcessModFile(a, filter).rec;
      && r.modId == d.id.value
      && r.modName == (if Present(d.name) then d.name.value else d.id.value)
      && Some(r.loader) == d.loader
    ensures ProcessModFile(a, filter).Failed? <==>
      a.zip.None? || ReadDescriptor(a.zip.value).None?
  {
  }

  /** An `mcmod.info` that is neither a non-empty list nor an object with a
      `modList` produces no record. */
  lemma McmodShapeWithoutRecord(path: string, name: string, entries: seq<string>, f: FabricJson, t: TomlBytes,
                                j: McmodJson, filter: Option<Loader>)
    requires FabricEntry !in entries && TomlEntry !in entries && McmodEntry in entries
    requires j == McmodArray([]) || j == McmodDict(None) || j == McmodScalar
    ensures ProcessModFile(Archive(path, name, Some(Zip(entries, f, t, j))), filter) == Unidentified
  {
  }

  /** An archive whose `mods.toml` has a `modId` or `displayName` line
      without `=` before both fields are known is dropped. */
  lemma TomlWithoutEqualsDropped(path: string, name: string, entries: seq<string>, f: FabricJson,
                                 m: McmodJson, lines: seq<string>, line: string, rest: seq<string>,
                                 filter: Option<Loader>)
    requires FabricEntry !in entries && TomlEntry in entries
    requires ScanToml(lines, (None, None)).Some? && !BothSet(ScanToml(lines, (None, None)).value)
    requires StartsWith(line, "modId") || StartsWith(line, "displayName")
    requires '=' !in line
    requires forall i :: 0 <= i < |lines| ==> '\n' !in lines[i]
    requires '\n' !in line
    requires forall i :: 0 <= i < |rest| ==> '\n' !in rest[i]
    ensures var text := Join(lines + [line] + rest, '\n');
            ProcessModFile(Archive(path, name, Some(Zip(entries, f, TomlText(text), m))), filter) == Failed
  {
    var all := lines + ([line] + rest);
    assert lines + [line] + rest == all;
    forall i | 0 <= i < |all| ensures '\n' !in all[i] {
      if i >= |lines| + 1 {
        assert all[i] == rest[i - |lines| - 1];
      }
    }
    SplitJoin(all, '\n');
    ScanTomlConcat(lines, [line] + rest, (None, None));
    MissingEqualsRaises(line, rest, ScanToml(lines, (None, None)).value);
  }

  /** A scan that reads all of `lines` without stopping continues on what
      follows from the state it reached. */
  lemma {:induction false} ScanTomlConcat(lines: seq<string>, more: seq<string>, f: Fields)
    requires !BothSet(f)
    requires ScanToml(lines, f).Some? && !BothSet(ScanToml(lines, f).value)
    ensures ScanToml(lines + more, f) == ScanToml(more, ScanToml(lines, f).value)
    decreases |lines|
  {
    if lines == [] {
      assert lines + more == more;
    } else {
      assert (lines + more)[0] == lines[0];
      var g := ScanLine(lines[0], f).value;
      assert (lines + more)[1..] == lines[1..] + more;
      ScanTomlConcat(lines[1..], more, g);
    }
  }

  // ---------------------------------------------------------------------------
  // scan_mods

  /** The records stored for a sequence of archives, in order. */
  function Records(archives: seq<Archive>, filter: Option<Loader>): seq<ModRecord>
    decreases |archives|
  {
    if archives == [] then []
    else
      var rest := Records(archives[1..], filter);
      match ProcessModFile(archives[0], filter)
      case Kept(r) => [r] + rest
      case _ => rest
  }

  /** The records of one loader. */
  function OfLoader(recs: seq<ModRecord>, l: Loader): (out: seq<ModRecord>)
    ensures |out| <= |recs|
    decreases |recs|
  {
    if recs == [] then []
    else (if recs[0].loader == l then [recs[0]] else []) + OfLoader(recs[1..], l)
  }

  /** Filtering by loader while scanning keeps exactly the records of that
      loader that an unfiltered scan keeps, in the same order. */
  lemma {:induction false} RecordsFilter(archives: seq<Archive>, l: Loader)
    ensures Records(archives, Some(l)) == OfLoader(Records(archives, None), l)
    decreases |archives|
  {
    if archives != [] {
      RecordsFilter(archives[1..], l);
      var rest := Records(archives[1..], None);
      match ProcessModFile(archives[0], None)
      case Kept(r) =>
        assert OfLoader([r] + rest, l) == (if r.loader == l then [r] else []) + OfLoader(rest, l) by {
          assert ([r] + rest)[1..] == rest;
        }
      case _ =>
    }
  }

  /** Every stored record comes from one of the archives, with that
      archive's path and name, a non-empty identifier and an admitted loader;
      and there is at most one record per archive. */
  lemma {:induction false} RecordsSound(archives: seq<Archive>, filter: Option<Loader>)
    ensures |Records(archives, filter)| <= |archives|
    ensures forall r :: r in Records(archives, filter) ==>
      r.modId != "" && (filter.None? || filter.value == r.loader)
      && exists a :: a in archives && a.path == r.path && a.name == r.currentFile
    decreases |archives|
  {
    if archives != [] {
      RecordsSound(archives[1..], filter);
      forall r | r in Records(archives[1..], filter)
        ensures exists a :: a in archives && a.path == r.path && a.name == r.currentFile
      {
        var a :| a in archives[1..] && a.path == r.path && a.name == r.currentFile;
        assert a in archives;
      }
    }
  }

  /** `scan_mods`: None (the scan fails and nothing is updated) when the
      directory is missing or holds no `*.jar` file; otherwise the records of
      the jar files. */
  function ScanMods(dirExists: bool, files: seq<Archive>, filter: Option<Loader>): (r: Option<seq<ModRecord>>)
    ensures r.None? <==> !dirExists || forall a :: a in files ==> !EndsWith(a.name, ".jar")
    ensures r.Some? ==> |r.value| <= |files|
  {
    var jars := Jars(files);
    assert jars != [] ==> jars[0] in jars;
    if !dirExists || jars == [] then None
    else
      RecordsSound(jars, filter);
      Some(Records(jars, filter))
  }

  /** The files matched by `glob("*.jar")`. */
  function Jars(files: seq<Archive>): (jars: seq<Archive>)
    ensures |jars| <= |files|
    ensures forall a :: a in jars <==> a in files && EndsWith(a.name, ".jar")
    decreases |files|
  {
    if files == [] then []
    else (if EndsWith(files[0].name, ".jar") then [files[0]] else []) + Jars(files[1..])
  }
}

=== FILE: mod_update.dfy ===
/**
 The update side of minecraft_mod_updater.py: the direct registry lookup of a
 scanned mod, the fall back to search, the choice of the newest version's
 first file, the download that writes the new jar before it removes the old
 one, and the run counters of `update_mods`. The registry is an oracle of four
 functions from request to response; the mods directory is a map from path to
 bytes.
 The directory map is keyed by file, not by path: on a filesystem that
 ignores case (the default on Windows and macOS) `Sodium.jar` and
 `sodium.jar` are one file.
 */
module ModUpdate {
  import opened Wrappers
  import opened Text
  import opened ModScan
  import opened ModResolve

  newtype byte = x: int | 0 <= x < 256
  type Bytes = seq<byte>

  /** The files of the mods directory, each under the key `FileKey` gives its
      paths. */
  type FileSystem = map<string, Bytes>

  /** How the filesystem tells files apart: by the exact path, or ignoring
      the case of letters. */
  datatype Naming = CaseSensitive | CaseInsensitive

  /** The file a path names. */
  function FileKey(n: Naming, path: string): string {
    if n.CaseSensitive? then path else Lower(path)
  }

  const RegistryBase := "https://api.modrinth.com/v2"

  /** The answer to the direct project lookup: the project's id, status 404,
      or another request failure with its message. */
  datatype LookupResponse = Project(id: string) | NotFound | LookupFailed(message: string)

  datatype VersionFile = VersionFile(url: string, filename: string)
  datatype Version = Version(files: seq<VersionFile>)

  /** The answer to a versions request: the versions, newest first, or a
      request failure with its message. */
  datatype VersionsResponse = Versions(list: seq<Version>) | VersionsFailed(message: string)

  /** The registry as seen by the updater: each request URL (or search term)
      has one answer; a download answers the bytes or fails. */
  datatype Registry = Registry(
    lookup: string -> LookupResponse,
    versions: string -> VersionsResponse,
    search: string -> SearchResponse,
    download: string -> Option<Bytes>)

  /** The files the operating system refuses to open for writing, and the
      existing files it refuses to remove (a jar locked by a running game). */
  datatype Faults = Faults(unwritable: set<string>, locked: set<string>)

  /** The updater's mods directory and optional game version, and how the
      filesystem it runs on names files and which operations it refuses. */
  datatype Settings = Settings(modsDir: string, gameVersion: Option<string>, naming: Naming, faults: Faults)

  function ProjectUrl(id: string): string {
    RegistryBase + "/project/" + id
  }

  /** The versions request of a project, restricted to the game version when
      one is set (an empty version counts as unset). */
  function VersionsUrl(s: Settings, pid: string): (url: string)
    ensures StartsWith(url, RegistryBase + "/project/" + pid + "/version")
  {
    var base := RegistryBase + "/project/" + pid + "/version";
    if Present(s.gameVersion) then base + "?game_versions=[\"" + s.gameVersion.value + "\"]" else base
  }

  /** For a project id without a `?`, the request carries a query exactly when
      a game version is set. */
  lemma VersionsUrlQuery(s: Settings, pid: string)
    requires '?' !in pid
    ensures '?' in VersionsUrl(s, pid) <==> Present(s.gameVersion)
  {
    var base := RegistryBase + "/project/" + pid + "/version";
    assert '?' !in RegistryBase + "/project/";
    assert '?' !in "/version";
    assert '?' !in base;
    if Present(s.gameVersion) {
      var url := base + "?game_versions=[\"" + s.gameVersion.value + "\"]";
      assert url[|base|] == '?';
    }
  }

  /** `Path(mods_dir, name)` for a directory given without a trailing slash. */
  function ModPath(dir: string, name: string): string {
    dir + "/" + name
  }

  /** Distinct names in one directory are distinct paths. */
  lemma ModPathDistinct(dir: string, a: string, b: string)
    requires a != b
    ensures ModPath(dir, a) != ModPath(dir, b)
  {
    assert a == ModPath(dir, a)[|dir| + 1..];
    assert b == ModPath(dir, b)[|dir| + 1..];
  }

  /** The result of `_download_and_replace_mod`: its return value, the files
      after the write and the files after the removal. */
  datatype Replacement = Replacement(ok: bool, written: FileSystem, final: FileSystem)

  /** `_download_and_replace_mod` on the files the two paths name: download
      `content`; on success write it to `newFile`, then remove `oldFile` when
      it is another file. A failed download or a file that cannot be opened
      for writing changes nothing. Removing a missing or locked file raises,
      so the result is false although the new file is in place. The source
      compares the path strings instead of the files; see
      DownloadAndReplaceAsWritten. */
  function DownloadAndReplace(fs: FileSystem, oldFile: string, newFile: string, content: Option<Bytes>,
                              faults: Faults): (r: Replacement)
    ensures r.final.Keys <= fs.Keys + {newFile}
  {
    if content.None? || newFile in faults.unwritable then Replacement(false, fs, fs)
    else
      var written := fs[newFile := content.value];
      if oldFile == newFile then Replacement(true, written, written)
      else if oldFile !in written || oldFile in faults.locked then Replacement(false, written, written)
      else Replacement(true, written, written - {oldFile})
  }

  /** A downloaded and written jar is in place at the end; the old one is gone
      when it is another file, unless it was locked; nothing else changes; and
      the result is true exactly when every step succeeded. */
  lemma DownloadAndReplaceSpec(fs: FileSystem, oldFile: string, newFile: string, content: Option<Bytes>,
                               faults: Faults)
    ensures var r := DownloadAndReplace(fs, oldFile, newFile, content, faults);
      var stored := content.Some? && newFile !in faults.unwritable;
      && (!stored ==> !r.ok && r.written == fs && r.final == fs)
      && (stored ==> newFile in r.final && r.final[newFile] == content.value)
      && (stored && oldFile != newFile ==> (oldFile in r.final <==> oldFile in fs && oldFile in faults.locked))
      && (r.ok <==> stored && (oldFile == newFile || (oldFile in fs && oldFile !in faults.locked)))
      && (forall p :: p in fs && p != oldFile && p != newFile ==> p in r.final && r.final[p] == fs[p])
  {
  }

  /** The new file is written before the old one is removed: a mod present
      before the replacement is present, as its old file or its new one, in
      every state the replacement passes through. */
  lemma NeverWithoutJar(fs: FileSystem, oldFile: string, newFile: string, content: Option<Bytes>,
                        faults: Faults)
    requires oldFile in fs
    ensures var r := DownloadAndReplace(fs, oldFile, newFile, content, faults);
      && (oldFile in r.written || newFile in r.written)
      && (oldFile in r.final || newFile in r.final)
  {
  }

  /** `_download_and_replace_mod` as written: `os.remove(old_path)` runs
      whenever `old_path != str(new_path)`, comparing the path strings. It
      agrees with DownloadAndReplace except when two different paths name
      one file. */
  function DownloadAndReplaceAsWritten(fs: FileSystem, n: Naming, oldPath: string, newPath: string,
                                       content: Option<Bytes>, faults: Faults): (r: Replacement)
    ensures oldPath == newPath || FileKey(n, oldPath) != FileKey(n, newPath) ==>
      r == DownloadAndReplace(fs, FileKey(n, oldPath), FileKey(n, newPath), content, faults)
  {
    var oldFile := FileKey(n, oldPath);
    var newFile := FileKey(n, newPath);
    if content.None? || newFile in faults.unwritable then Replacement(false, fs, fs)
    else
      var written := fs[newFile := content.value];
      if oldPath == newPath then Replacement(true, written, written)
      else if oldFile !in written || oldFile in faults.locked then Replacement(false, written, written)
      else Replacement(true, written, written - {oldFile})
  }

  /** As written, a new name that differs from the old one only in case, on
      a filesystem that ignores case, overwrites the old jar in place and then
      removes it: the call reports success and the mod is gone. */
  lemma CaseOnlyRenameAsWritten(fs: FileSystem, n: Naming, oldPath: string, newPath: string,
                                content: Option<Bytes>, faults: Faults)
    requires oldPath != newPath && FileKey(n, oldPath) == FileKey(n, newPath)
    requires content.Some? && FileKey(n, newPath) !in faults.unwritable && FileKey(n, oldPath) !in faults.locked
    ensures var r := DownloadAndReplaceAsWritten(fs, n, oldPath, newPath, content, faults);
      r.ok && FileKey(n, oldPath) !in r.final && FileKey(n, newPath) !in r.final
  {
  }

  /** `sodium.jar` replaced by `Sodium.jar` in `mods` on a filesystem that
      ignores case: the two paths differ and name one file. */
  lemma SodiumPathsOneFile()
    ensures ModPath("mods", "sodium.jar") != ModPath("mods", "Sodium.jar")
    ensures FileKey(CaseInsensitive, ModPath("mods", "sodium.jar")) == FileKey(CaseInsensitive, ModPath("mods", "Sodium.jar"))
  {
    assert ModPath("mods", "sodium.jar")[5] != ModPath("mods", "Sodium.jar")[5];
    assert Lower(ModPath("mods", "Sodium.jar")) == ModPath("mods", "sodium.jar");
    assert Lower(ModPath("mods", "sodium.jar")) == ModPath("mods", "sodium.jar");
  }

  /** The concrete case: the mods directory ends up empty although the
      replacement reports success. */
  lemma SodiumRenameLosesJar(before: Bytes, after: Bytes)
    ensures var key := FileKey(CaseInsensitive, ModPath("mods", "sodium.jar"));
      var r := DownloadAndReplaceAsWritten(map[key := before], CaseInsensitive,
        ModPath("mods", "sodium.jar"), ModPath("mods", "Sodium.jar"), Some(after), Faults({}, {}));
      r.ok && r.final == map[]
  {
    SodiumPathsOneFile();
    var key := FileKey(CaseInsensitive, ModPath("mods", "sodium.jar"));
    CaseOnlyRenameAsWritten(map[key := before], CaseInsensitive,
      ModPath("mods", "sodium.jar"), ModPath("mods", "Sodium.jar"), Some(after), Faults({}, {}));
  }

  /** What one mod's update came to. `Replaced` carries the name of the file
      installed and the ignored result of the replacement. */
  datatype Outcome =
    | NoVersions
    | AlreadyCurrent
    | Replaced(ok: bool, filename: string)
    | NotOnRegistry
    | Errored

  /** An outcome, the files afterwards, and whether the search ran. */
  datatype Step = Step(outcome: Outcome, fs: FileSystem, searched: bool)

  /** Act on a versions list: nothing without versions, an error without a
      file, nothing when the newest version's first file is the current one,
      and otherwise download it next to the old jar and replace that. The
      replacement compares files, as intended; the code as written compares
      path strings (DownloadAndReplaceAsWritten). */
  function Install(reg: Registry, s: Settings, fs: FileSystem, rec: ModRecord, vs: seq<Version>, searched: bool): (st: Step)
    ensures st.searched == searched
    ensures st.outcome.Replaced? ==> st.outcome.filename != rec.currentFile
    ensures !st.outcome.Replaced? ==> st.fs == fs
  {
    if vs == [] then Step(NoVersions, fs, searched)
    else if vs[0].files == [] then Step(Errored, fs, searched)
    else
      var f := vs[0].files[0];
      if f.filename == rec.currentFile then Step(AlreadyCurrent, fs, searched)
      else
        var r := DownloadAndReplace(fs, FileKey(s.naming, rec.path), FileKey(s.naming, ModPath(s.modsDir, f.filename)),
                                    reg.download(f.url), s.faults);
        Step(Replaced(r.ok, f.filename), r.final, searched)
  }

  /** Where the versions to act on come from: a list, fetched directly or
      after a search; no project matched by search; or a failed request,
      reported and otherwise ignored. */
  datatype Source = Listed(vs: seq<Version>, searched: bool) | Missing | RequestFailed(searched: bool)

  /** `_search_and_update_mod` up to its versions request. */
  function SearchSource(reg: Registry, s: Settings, rec: ModRecord): (src: Source)
    ensures src.Missing? || src.searched
    ensures src.Missing? <==> Resolve(reg.search, rec.modId, rec.modName).Unresolved?
  {
    match Resolve(reg.search, rec.modId, rec.modName)
    case Resolved(hit, _) =>
      (match reg.versions(VersionsUrl(s, hit.projectId))
       case Versions(vs) => Listed(vs, true)
       case VersionsFailed(_) => RequestFailed(true))
    case Unresolved => Missing
    case SearchFailed(_) => RequestFailed(true)
  }

  /** A request failure whose text mentions 404 sends the updater to search. */
  predicate Mentions404(message: string) {
    Contains(message, "404")
  }

  /** The direct path gives up for search: the lookup answered 404, or the
      lookup or the versions request failed with a message mentioning 404. */
  predicate FallsBack(reg: Registry, s: Settings, rec: ModRecord) {
    match reg.lookup(ProjectUrl(rec.modId))
    case NotFound => true
    case LookupFailed(m) => Mentions404(m)
    case Project(pid) =>
      var v := reg.versions(VersionsUrl(s, pid));
      v.VersionsFailed? && Mentions404(v.message)
  }

  /** `update_modrinth_mod` up to its versions request: look the mod up by id
      and fetch the project's versions, falling back to search as above. */
  function VersionSource(reg: Registry, s: Settings, rec: ModRecord): (src: Source)
    ensures FallsBack(reg, s, rec) ==> src == SearchSource(reg, s, rec)
    ensures !FallsBack(reg, s, rec) ==> !src.Missing? && !src.searched
  {
    match reg.lookup(ProjectUrl(rec.modId))
    case NotFound => SearchSource(reg, s, rec)
    case LookupFailed(m) => if Mentions404(m) then SearchSource(reg, s, rec) else RequestFailed(false)
    case Project(pid) =>
      match reg.versions(VersionsUrl(s, pid))
      case VersionsFailed(m) => if Mentions404(m) then SearchSource(reg, s, rec) else RequestFailed(false)
      case Versions(vs) => Listed(vs, false)
  }

  /** `update_modrinth_mod`: act on the versions found; a mod no search term
      matched is counted as not found, and any failure is reported and
      leaves everything as it was. */
  function UpdateMod(reg: Registry, s: Settings, fs: FileSystem, rec: ModRecord): (st: Step)
    ensures st.outcome.Replaced? ==> st.outcome.filename != rec.currentFile
  {
    match VersionSource(reg, s, rec)
    case Listed(vs, searched) => Install(reg, s, fs, rec, vs, searched)
    case Missing => Step(NotOnRegistry, fs, true)
    case RequestFailed(searched) => Step(Errored, fs, searched)
  }

  /** The search runs exactly when the direct path falls back, and a mod is
      counted as missing from the registry exactly when it fell back and no
      search term was accepted. */
  lemma SearchOnlyOnFallback(reg: Registry, s: Settings, fs: FileSystem, rec: ModRecord)
    ensures UpdateMod(reg, s, fs, rec).searched <==> FallsBack(reg, s, rec)
    ensures !FallsBack(reg, s, rec) ==> UpdateMod(reg, s, fs, rec).outcome != NotOnRegistry
    ensures UpdateMod(reg, s, fs, rec).outcome == NotOnRegistry <==>
      FallsBack(reg, s, rec) && forall j :: 0 <= j < |SearchTerms(rec.modId, rec.modName)| ==>
        Passed(reg.search, SearchTerms(rec.modId, rec.modName), j, rec.modId, rec.modName)
  {
    UnresolvedIffAllPassed(reg.search, SearchTerms(rec.modId, rec.modName), 0, rec.modId, rec.modName);
  }

  /** Only the replaced jar and its successor change. */
  lemma UpdateModFrame(reg: Registry, s: Settings, fs: FileSystem, rec: ModRecord)
    ensures var st := UpdateMod(reg, s, fs, rec);
      && (!st.outcome.Replaced? ==> st.fs == fs)
      && (st.outcome.Replaced? ==>
            var oldFile := FileKey(s.naming, rec.path);
            var newFile := FileKey(s.naming, ModPath(s.modsDir, st.outcome.filename));
            forall p :: p in fs && p != oldFile && p != newFile ==> p in st.fs && st.fs[p] == fs[p])
  {
    var st := UpdateMod(reg, s, fs, rec);
    if st.outcome.Replaced? {
      var n := st.outcome.filename;
      var f := VersionSource(reg, s, rec).vs[0].files[0];
      DownloadAndReplaceSpec(fs, FileKey(s.naming, rec.path), FileKey(s.naming, ModPath(s.modsDir, n)),
                             reg.download(f.url), s.faults);
    }
  }

  /** For a jar scanned from the mods directory, on a filesystem that tells
      case apart, the new name always names another file. When it does, a
      replacement reports success exactly when the new jar is in place and the
      old one was there and is gone. When the new name is the old one up to
      case, success leaves the new jar in place and failure changes nothing.
      Either way a mod that was there is afterwards present as its old file or
      its new one. */
  lemma ReplacedRemovesOld(reg: Registry, s: Settings, fs: FileSystem, rec: ModRecord)
    requires rec.path == ModPath(s.modsDir, rec.currentFile)
    requires UpdateMod(reg, s, fs, rec).outcome.Replaced?
    ensures var st := UpdateMod(reg, s, fs, rec);
      var oldFile := FileKey(s.naming, rec.path);
      var newFile := FileKey(s.naming, ModPath(s.modsDir, st.outcome.filename));
      && (s.naming.CaseSensitive? ==> oldFile != newFile)
      && (oldFile != newFile ==> (st.outcome.ok <==> oldFile in fs && oldFile !in st.fs && newFile in st.fs))
      && (oldFile == newFile ==> (st.outcome.ok ==> newFile in st.fs) && (!st.outcome.ok ==> st.fs == fs))
      && (oldFile in fs ==> oldFile in st.fs || newFile in st.fs)
  {
    var st := UpdateMod(reg, s, fs, rec);
    var n := st.outcome.filename;
    var src := VersionSource(reg, s, rec);
    assert st == Install(reg, s, fs, rec, src.vs, src.searched);
    var f := src.vs[0].files[0];
    ModPathDistinct(s.modsDir, rec.currentFile, n);
    DownloadAndReplaceSpec(fs, FileKey(s.naming, rec.path), FileKey(s.naming, ModPath(s.modsDir, n)),
                           reg.download(f.url), s.faults);
  }

  /** After a successful replacement the installed jar is in the mods
      directory, and updating a record of it (the same id and name, the new
      path and file name) against the same registry finds it current and
      changes nothing. */
  lemma RerunFindsCurrent(reg: Registry, s: Settings, fs: FileSystem, rec: ModRecord)
    requires UpdateMod(reg, s, fs, rec).outcome.Replaced? && UpdateMod(reg, s, fs, rec).outcome.ok
    ensures var st := UpdateMod(reg, s, fs, rec);
      var name := st.outcome.filename;
      var next := rec.(path := ModPath(s.modsDir, name), currentFile := name);
      && FileKey(s.naming, next.path) in st.fs
      && UpdateMod(reg, s, st.fs, next).outcome == AlreadyCurrent
      && UpdateMod(reg, s, st.fs, next).fs == st.fs
  {
  }

  /** The newest version's first file being the current one leaves the files
      alone, and so does a versions list that is empty. */
  lemma CurrentOrEmptyUntouched(reg: Registry, s: Settings, fs: FileSystem, rec: ModRecord, vs: seq<Version>, searched: bool)
    requires vs == [] || (vs[0].files != [] && vs[0].files[0].filename == rec.currentFile)
    ensures var st := Install(reg, s, fs, rec, vs, searched);
      && st.fs == fs
      && st.outcome == (if vs == [] then NoVersions else AlreadyCurrent)
  {
  }

  /** A failed download still counts as an update: the outcome is a
      replacement whose result is false and the files are unchanged. */
  lemma FailedDownloadCounted(reg: Registry, s: Settings, fs: FileSystem, rec: ModRecord, vs: seq<Version>, searched: bool)
    requires vs != [] && vs[0].files != [] && vs[0].files[0].filename != rec.currentFile
    requires reg.download(vs[0].files[0].url).None?
    ensures var st := Install(reg, s, fs, rec, vs, searched);
      && st.outcome == Replaced(false, vs[0].files[0].filename)
      && st.fs == fs
      && Tally(Counters(0, 0, 0), st.outcome).updated == 1
  {
  }

  /** An old jar the system refuses to remove stays next to the new one: the
      replacement reports failure and the mod still counts as updated. */
  lemma LockedJarKept(reg: Registry, s: Settings, fs: FileSystem, rec: ModRecord, vs: seq<Version>, searched: bool)
    requires vs != [] && vs[0].files != [] && vs[0].files[0].filename != rec.currentFile
    requires reg.download(vs[0].files[0].url).Some?
    requires FileKey(s.naming, ModPath(s.modsDir, vs[0].files[0].filename)) !in s.faults.unwritable
    requires FileKey(s.naming, rec.path) in fs && FileKey(s.naming, rec.path) in s.faults.locked
    requires FileKey(s.naming, rec.path) != FileKey(s.naming, ModPath(s.modsDir, vs[0].files[0].filename))
    ensures var st := Install(reg, s, fs, rec, vs, searched);
      && st.outcome == Replaced(false, vs[0].files[0].filename)
      && FileKey(s.naming, rec.path) in st.fs && FileKey(s.naming, ModPath(s.modsDir, vs[0].files[0].filename)) in st.fs
      && Tally(Counters(0, 0, 0), st.outcome).updated == 1
  {
  }

  /** Comparing files rather than path strings, a new name that differs from
      the current one only in case, on a filesystem that ignores case, is
      written over the old jar and nothing is removed: the replacement
      succeeds and the directory holds the new content. */
  lemma CaseOnlyRenameKeepsJar(reg: Registry, s: Settings, fs: FileSystem, rec: ModRecord, vs: seq<Version>, searched: bool)
    requires vs != [] && vs[0].files != [] && vs[0].files[0].filename != rec.currentFile
    requires FileKey(s.naming, rec.path) == FileKey(s.naming, ModPath(s.modsDir, vs[0].files[0].filename))
    requires reg.download(vs[0].files[0].url).Some?
    requires FileKey(s.naming, rec.path) !in s.faults.unwritable
    ensures var st := Install(reg, s, fs, rec, vs, searched);
      var file := FileKey(s.naming, rec.path);
      && st.outcome == Replaced(true, vs[0].files[0].filename)
      && file in st.fs && st.fs[file] == reg.download(vs[0].files[0].url).value
  {
  }

  /** The counters of a run. */
  datatype Counters = Counters(checked: nat, updated: nat, notFound: nat)

  /** Every mod is checked; a replacement counts as an update whatever its
      result, and a mod no search term matched counts as not found. */
  function Tally(c: Counters, o: Outcome): (c': Counters)
    ensures c'.checked == c.checked + 1
    ensures c'.updated + c'.notFound <= c.updated + c.notFound + 1
  {
    Counters(
      c.checked + 1,
      c.updated + (if o.Replaced? then 1 else 0),
      c.notFound + (if o == NotOnRegistry then 1 else 0))
  }

  /** A whole run: the counters, the files afterwards, and one outcome per
      mod in order. */
  datatype Run = Run(counters: Counters, fs: FileSystem, outcomes: seq<Outcome>)

  /** The mods updated one after another, each seeing the files the previous
      one left. */
  function UpdateEach(reg: Registry, s: Settings, fs: FileSystem, recs: seq<ModRecord>, c: Counters): (r: Run)
    ensures |r.outcomes| == |recs|
    ensures r.counters.checked == c.checked + |recs|
    decreases |recs|
  {
    if recs == [] then Run(c, fs, [])
    else
      var st := UpdateMod(reg, s, fs, recs[0]);
      var rest := UpdateEach(reg, s, st.fs, recs[1..], Tally(c, st.outcome));
      Run(rest.counters, rest.fs, [st.outcome] + rest.outcomes)
  }

  /** `update_mods`: nothing without records, otherwise every record in turn
      from zero counters. */
  function UpdateMods(reg: Registry, s: Settings, fs: FileSystem, recs: seq<ModRecord>): (r: Run)
    ensures |r.outcomes| == |recs|
    ensures r.counters.checked == |recs|
  {
    if recs == [] then Run(Counters(0, 0, 0), fs, [])
    else UpdateEach(reg, s, fs, recs, Counters(0, 0, 0))
  }

  /** The number of outcomes satisfying `p`. */
  function Count(os: seq<Outcome>, p: Outcome -> bool): (n: nat)
    ensures n <= |os|
  {
    if os == [] then 0 else (if p(os[0]) then 1 else 0) + Count(os[1..], p)
  }

  predicate IsReplaced(o: Outcome) { o.Replaced? }
  predicate IsNotFound(o: Outcome) { o == NotOnRegistry }

  lemma {:induction false} CountSplit(os: seq<Outcome>, p: Outcome -> bool, q: Outcome -> bool)
    requires forall o :: !(p(o) && q(o))
    ensures Count(os, p) + Count(os, q) <= |os|
  {
    if os != [] {
      CountSplit(os[1..], p, q);
    }
  }

  /** The counters of a run: every mod checked once, the updates are the
      replacements and the not-found count is the mods no search matched. */
  lemma {:induction false} UpdateEachCounts(reg: Registry, s: Settings, fs: FileSystem, recs: seq<ModRecord>, c: Counters)
    ensures var r := UpdateEach(reg, s, fs, recs, c);
      && r.counters.checked == c.checked + |recs|
      && r.counters.updated == c.updated + Count(r.outcomes, IsReplaced)
      && r.counters.notFound == c.notFound + Count(r.outcomes, IsNotFound)
    decreases |recs|
  {
    if recs != [] {
      var st := UpdateMod(reg, s, fs, recs[0]);
      var rest := UpdateEach(reg, s, st.fs, recs[1..], Tally(c, st.outcome));
      UpdateEachCounts(reg, s, st.fs, recs[1..], Tally(c, st.outcome));
      assert ([st.outcome] + rest.outcomes)[1..] == rest.outcomes;
    }
  }

  /** A run checks every record once, and its updates and not-found mods are
      distinct outcomes, so together they never exceed the checks. */
  lemma UpdateModsCounts(reg: Registry, s: Settings, fs: FileSystem, recs: seq<ModRecord>)
    ensures var r := UpdateMods(reg, s, fs, recs);
      && r.counters.checked == |recs|
      && r.counters.updated == Count(r.outcomes, IsReplaced)
      && r.counters.notFound == Count(r.outcomes, IsNotFound)
      && r.counters.updated + r.counters.notFound <= r.counters.checked
  {
    var r := UpdateMods(reg, s, fs, recs);
    if recs != [] {
      UpdateEachCounts(reg, s, fs, recs, Counters(0, 0, 0));
    }
    CountSplit(r.outcomes, IsReplaced, IsNotFound);
  }

  /** The first outcome of a run is the first mod's update on the files as
      they were, and the rest of the run starts from what it left. */
  lemma UpdateEachHead(reg: Registry, s: Settings, fs: FileSystem, recs: seq<ModRecord>, c: Counters)
    requires recs != []
    ensures var st := UpdateMod(reg, s, fs, recs[0]);
      var r := UpdateEach(reg, s, fs, recs, c);
      && r.outcomes[0] == st.outcome
      && r.outcomes[1..] == UpdateEach(reg, s, st.fs, recs[1..], Tally(c, st.outcome)).outcomes
  {
    var st := UpdateMod(reg, s, fs, recs[0]);
    var rest := UpdateEach(reg, s, st.fs, recs[1..], Tally(c, st.outcome));
    assert ([st.outcome] + rest.outcomes)[1..] == rest.outcomes;
  }
}

=== FILE: repo_config.dfy ===
/**
 The configuration files read by ghsummarize.py and ghextractall.py (both
 scripts carry identical copies of the two loaders):
 - `.branch`: lines `owner/repo branch`, mapping a repository key to the branch
   to clone; blank lines and `#` comments are skipped;
 - `.ignore` / `.ownerignore`: one repository name or owner per line.
 A file is given as the lines its iteration yields, or None when it is not a
 regular file.
 */
module RepoConfig {
  import opened Wrappers
  import opened Text

  /** Length of the leading run of characters outside `p`. */
  function TokenLength(t: string, p: char -> bool): (k: nat)
    ensures k <= |t|
    ensures forall i :: 0 <= i < k ==> !p(t[i])
    ensures k == |t| || p(t[k])
  {
    if t == [] || p(t[0]) then 0 else 1 + TokenLength(t[1..], p)
  }

  lemma TokenLengthUnique(t: string, k: nat, p: char -> bool)
    requires k <= |t|
    requires forall i :: 0 <= i < k ==> !p(t[i])
    requires k == |t| || p(t[k])
    ensures TokenLength(t, p) == k
  {
  }

  /** Python's `s.split(None, 1)` with the white space given by `p`: white
      space runs separate, leading white space is skipped, at most one split
      is made, and the remainder keeps its inner and trailing white space. */
  function SplitOnce(s: string, p: char -> bool): (parts: seq<string>)
    ensures |parts| <= 2
    ensures parts == [] <==> forall i :: 0 <= i < |s| ==> p(s[i])
  {
    TrimLeftSpec(s, p);
    var t := TrimLeft(s, p);
    if t == [] then []
    else
      var k := TokenLength(t, p);
      var rest := TrimLeft(t[k..], p);
      if rest == [] then [t[..k]] else [t[..k], rest]
  }

  /** The first part is a non-empty word. */
  lemma SplitOnceFirstWord(s: string, p: char -> bool)
    ensures var parts := SplitOnce(s, p);
      |parts| >= 1 ==> parts[0] != [] && forall i :: 0 <= i < |parts[0]| ==> !p(parts[0][i])
  {
    TrimLeftSpec(s, p);
    var t := TrimLeft(s, p);
    if t != [] {
      var k := TokenLength(t, p);
      SplitOnceParts(s, p, t, k, TrimLeft(t[k..], p));
      SplitOnceHead(t, k, p);
    }
  }

  /** The second part is non-empty and does not start with white space. */
  lemma SplitOnceRemainder(s: string, p: char -> bool)
    ensures var parts := SplitOnce(s, p);
      |parts| == 2 ==> parts[1] != [] && !p(parts[1][0])
  {
    var t := TrimLeft(s, p);
    if t != [] {
      var k := TokenLength(t, p);
      var rest := TrimLeft(t[k..], p);
      TrimLeftSpec(t[k..], p);
      SplitOnceParts(s, p, t, k, rest);
    }
  }

  /** The second part is a suffix of the string. */
  lemma SplitOnceSuffix(s: string, p: char -> bool)
    ensures var parts := SplitOnce(s, p);
      |parts| == 2 ==> |parts[1]| <= |s| && parts[1] == s[|s| - |parts[1]|..]
  {
    TrimLeftSpec(s, p);
    var t := TrimLeft(s, p);
    if t != [] {
      var k := TokenLength(t, p);
      var rest := TrimLeft(t[k..], p);
      TrimLeftSpec(t[k..], p);
      SplitOnceParts(s, p, t, k, rest);
      SplitOnceRest(s, t, k, rest);
    }
  }

  /** A string that starts with a word starts with the first part. */
  lemma SplitOnceStartsWord(s: string, p: char -> bool)
    requires s != [] && !p(s[0])
    ensures var parts := SplitOnce(s, p);
      |parts| >= 1 && StartsWith(s, parts[0])
  {
    var t := TrimLeft(s, p);
    assert t == s;
    var k := TokenLength(t, p);
    SplitOnceParts(s, p, t, k, TrimLeft(t[k..], p));
    SplitOnceHead(t, k, p);
  }

  /** The parts named by the pieces they are cut from. */
  lemma SplitOnceParts(s: string, p: char -> bool, t: string, k: nat, rest: string)
    requires t == TrimLeft(s, p) && t != []
    requires k == TokenLength(t, p) && rest == TrimLeft(t[k..], p)
    ensures SplitOnce(s, p) == if rest == [] then [t[..k]] else [t[..k], rest]
    ensures s != [] && !p(s[0]) ==> t == s
  {
  }

  /** The leading word of a string that does not start with white space is a
      non-empty prefix free of white space. */
  lemma SplitOnceHead(t: string, k: nat, p: char -> bool)
    requires t != [] && !p(t[0])
    requires k == TokenLength(t, p)
    ensures 1 <= k <= |t|
    ensures forall i :: 0 <= i < |t[..k]| ==> !p(t[..k][i])
    ensures StartsWith(t, t[..k])
  {
  }

  /** The remainder after the leading word is a suffix of the original. */
  lemma SplitOnceRest(s: string, t: string, k: nat, rest: string)
    requires |t| <= |s| && t == s[|s| - |t|..]
    requires k <= |t|
    requires |rest| <= |t| - k && rest == t[k..][|t| - k - |rest|..]
    ensures |rest| <= |s| && rest == s[|s| - |rest|..]
  {
    SuffixOfSuffix(s, t, t[k..], rest);
  }

  /** `s.split(None, 1)`. */
  function SplitOnceOnSpace(s: string): (parts: seq<string>)
    ensures |parts| <= 2
  {
    SplitOnce(s, IsSpace)
  }

  /** A suffix of a suffix of a suffix is a suffix. */
  lemma SuffixOfSuffix(s: string, t: string, u: string, r: string)
    requires |t| <= |s| && t == s[|s| - |t|..]
    requires |u| <= |t| && u == t[|t| - |u|..]
    requires |r| <= |u| && r == u[|u| - |r|..]
    ensures r == s[|s| - |r|..]
  {
  }

  /** One `.branch` line: the stripped line, unless blank or a comment, split
      into the repository key and the rest of the line as the branch. */
  function ParseBranchLine(raw: string): (entry: Option<(string, string)>)
    ensures entry.Some? ==>
      var (key, branch) := entry.value;
      && key != [] && key[0] != '#'
      && (forall i :: 0 <= i < |key| ==> !IsSpace(key[i]))
      && branch != [] && !IsSpace(branch[0]) && !IsSpace(branch[|branch| - 1])
  {
    var line := Strip(raw);
    if line == [] || StartsWith(line, "#") then None
    else
      var parts := SplitOnceOnSpace(line);
      if |parts| == 2 then
        StripSpec(raw);
        SplitOnceFirstWord(line, IsSpace);
        SplitOnceRemainder(line, IsSpace);
        SplitOnceSuffix(line, IsSpace);
        SplitOnceStartsWord(line, IsSpace);
        assert parts[1][|parts[1]| - 1] == line[|line| - 1];
        assert parts[0][0] == line[0];
        Some((parts[0], parts[1]))
      else None
  }

  /** The map built by `load_branch_config` from the parsed lines, in order:
      each declared entry is assigned over what came before. */
  function Assign(entries: seq<Option<(string, string)>>): map<string, string>
    decreases |entries|
  {
    if entries == [] then map[]
    else
      var m := Assign(entries[..|entries| - 1]);
      match entries[|entries| - 1]
      case Some((key, branch)) => m[key := branch]
      case None => m
  }

  function ParseBranchLines(lines: seq<string>): (entries: seq<Option<(string, string)>>)
    ensures |entries| == |lines|
    ensures forall i :: 0 <= i < |lines| ==> entries[i] == ParseBranchLine(lines[i])
  {
    seq(|lines|, i requires 0 <= i < |lines| => ParseBranchLine(lines[i]))
  }

  /** The `.branch` mapping of the lines of a file: keys are single words not
      starting with `#`, and branches are non-empty. */
  function BranchMap(lines: seq<string>): (m: map<string, string>)
    ensures forall key :: key in m ==>
      key != [] && key[0] != '#' && (forall i :: 0 <= i < |key| ==> !IsSpace(key[i])) && m[key] != []
  {
    BranchEntriesWellFormed(lines);
    Assign(ParseBranchLines(lines))
  }

  /** Every key and branch in the map comes from a parsed line. */
  lemma BranchEntriesWellFormed(lines: seq<string>)
    ensures var m := Assign(ParseBranchLines(lines));
      forall key :: key in m ==>
        key != [] && key[0] != '#' && (forall i :: 0 <= i < |key| ==> !IsSpace(key[i])) && m[key] != []
  {
    var entries := ParseBranchLines(lines);
    forall key | key in Assign(entries)
      ensures key != [] && key[0] != '#' && (forall i :: 0 <= i < |key| ==> !IsSpace(key[i]))
      ensures Assign(entries)[key] != []
    {
      AssignLastWriter(entries, key);
      var i :| 0 <= i < |entries| && entries[i] == Some((key, Assign(entries)[key]));
      assert ParseBranchLine(lines[i]) == entries[i];
    }
  }

  /** `load_branch_config`: a missing file gives the empty map. */
  function LoadBranchConfig(file: Option<seq<string>>): (m: map<string, string>)
    ensures file.None? ==> m == map[]
    ensures forall key :: key in m ==> m[key] != []
  {
    match file
    case None => map[]
    case Some(lines) => BranchMap(lines)
  }

  predicate Declares(entry: Option<(string, string)>, key: string) {
    entry.Some? && entry.value.0 == key
  }

  /** A key is mapped exactly when some entry declares it. */
  lemma {:induction false} AssignDomain(entries: seq<Option<(string, string)>>, key: string)
    ensures key in Assign(entries) <==> exists i :: 0 <= i < |entries| && Declares(entries[i], key)
    decreases |entries|
  {
    if entries != [] {
      var n := |entries| - 1;
      var pre := entries[..n];
      AssignDomain(pre, key);
      if !Declares(entries[n], key) {
        if key in Assign(pre) {
          var i :| 0 <= i < n && Declares(pre[i], key);
          assert entries[i] == pre[i];
        }
        if exists i :: 0 <= i < |entries| && Declares(entries[i], key) {
          var i :| 0 <= i < |entries| && Declares(entries[i], key);
          assert pre[i] == entries[i];
        }
      }
    }
  }

  /** A mapped key holds the branch of the last entry that declares it
      (later entries overwrite). */
  lemma {:induction false} AssignLastWriter(entries: seq<Option<(string, string)>>, key: string)
    requires key in Assign(entries)
    ensures exists i :: 0 <= i < |entries| && entries[i] == Some((key, Assign(entries)[key]))
                        && forall j :: i < j < |entries| ==> !Declares(entries[j], key)
    decreases |entries|
  {
    var n := |entries| - 1;
    var pre := entries[..n];
    if !Declares(entries[n], key) {
      assert key in Assign(pre) && Assign(entries)[key] == Assign(pre)[key];
      AssignLastWriter(pre, key);
      var i :| 0 <= i < n && pre[i] == Some((key, Assign(pre)[key]))
               && forall j :: i < j < n ==> !Declares(pre[j], key);
      assert entries[i] == pre[i];
      forall j | i < j < |entries| ensures !Declares(entries[j], key) {
        if j < n {
          assert entries[j] == pre[j];
        }
      }
    }
  }

  /** The `.branch` mapping: a key is present exactly when some line declares
      it, with the branch of the last such line. */
  lemma BranchMapLastWriter(lines: seq<string>, key: string)
    ensures key in BranchMap(lines) <==> exists i :: 0 <= i < |lines| && Declares(ParseBranchLine(lines[i]), key)
    ensures key in BranchMap(lines) ==>
      exists i :: 0 <= i < |lines| && ParseBranchLine(lines[i]) == Some((key, BranchMap(lines)[key]))
                  && forall j :: i < j < |lines| ==> !Declares(ParseBranchLine(lines[j]), key)
  {
    AssignDomain(ParseBranchLines(lines), key);
    if key in BranchMap(lines) {
      AssignLastWriter(ParseBranchLines(lines), key);
    }
  }

  /** A well-formed line, with any surrounding white space, reads back as the
      key and branch it was written from. */
  lemma BranchLineRoundTrip(pre: string, key: string, gap: string, branch: string, post: string)
    requires forall i :: 0 <= i < |pre| ==> IsSpace(pre[i])
    requires forall i :: 0 <= i < |post| ==> IsSpace(post[i])
    requires key != [] && key[0] != '#'
    requires forall i :: 0 <= i < |key| ==> !IsSpace(key[i])
    requires gap != [] && forall i :: 0 <= i < |gap| ==> IsSpace(gap[i])
    requires branch != [] && !IsSpace(branch[0]) && !IsSpace(branch[|branch| - 1])
    ensures ParseBranchLine(pre + key + gap + branch + post) == Some((key, branch))
  {
    var line := key + gap + branch;
    assert pre + key + gap + branch + post == pre + line + post;
    StripAround(pre, line, post);
    assert line[0] == key[0];
    SplitKeyBranch(key, gap, branch);
  }

  /** `split(None, 1)` of a stripped line separates the first word from the
      rest. */
  lemma SplitKeyBranch(key: string, gap: string, branch: string)
    requires key != [] && forall i :: 0 <= i < |key| ==> !IsSpace(key[i])
    requires gap != [] && forall i :: 0 <= i < |gap| ==> IsSpace(gap[i])
    requires branch != [] && !IsSpace(branch[0])
    ensures SplitOnceOnSpace(key + gap + branch) == [key, branch]
  {
    SplitOnceWords(key, gap, branch, IsSpace);
  }

  /** A word, a gap and a remainder that starts with a word split into the
      word and the remainder. */
  lemma SplitOnceWords(key: string, gap: string, branch: string, p: char -> bool)
    requires key != [] && forall i :: 0 <= i < |key| ==> !p(key[i])
    requires gap != [] && forall i :: 0 <= i < |gap| ==> p(gap[i])
    requires branch != [] && !p(branch[0])
    ensures SplitOnce(key + gap + branch, p) == [key, branch]
  {
    var line := key + (gap + branch);
    assert key + gap + branch == line;
    assert line[0] == key[0];
    assert TrimLeft(line, p) == line;
    assert line[|key|] == gap[0];
    TokenLengthUnique(line, |key|, p);
    assert line[..|key|] == key;
    assert line[|key|..] == gap + branch;
    TrimLeftPrefix(gap, branch, p);
  }

  /** A line without inner white space declares nothing. */
  lemma OneWordLineIgnored(raw: string)
    requires forall i :: 0 <= i < |raw| ==> !IsSpace(raw[i])
    ensures ParseBranchLine(raw) == None
  {
    if raw != [] {
      TrimLeftPrefix([], raw, IsSpace);
      assert [] + raw == raw;
      TrimRightSuffix(raw, [], IsSpace);
      assert raw + [] == raw;
      TokenLengthUnique(raw, |raw|, IsSpace);
    }
  }

  // ---------------------------------------------------------------------------
  // .ignore and .ownerignore

  /** A line contributes when its stripped form is non-empty and the line as
      read (not stripped) does not start with `#`. */
  predicate Listed(line: string) {
    Strip(line) != [] && !StartsWith(line, "#")
  }

  /** The entry a line contributes, if any. */
  function IgnoreEntry(line: string): Option<string> {
    if Listed(line) then Some(Strip(line)) else None
  }

  /** The values of the present entries, read in order. */
  function Collect(entries: seq<Option<string>>): set<string>
    decreases |entries|
  {
    if entries == [] then {}
    else
      var last := entries[|entries| - 1];
      Collect(entries[..|entries| - 1]) + (if last.Some? then {last.value} else {})
  }

  lemma {:induction false} CollectMembers(entries: seq<Option<string>>, x: string)
    ensures x in Collect(entries) <==> exists i :: 0 <= i < |entries| && entries[i] == Some(x)
    decreases |entries|
  {
    if entries != [] {
      var n := |entries| - 1;
      CollectMembers(entries[..n], x);
      assert forall i :: 0 <= i < n ==> entries[..n][i] == entries[i];
    }
  }

  /** The set built by `load_ignore_list` from `lines`. */
  function IgnoreSet(lines: seq<string>): (s: set<string>)
    ensures forall x :: x in s ==> x != [] && !IsSpace(x[0]) && !IsSpace(x[|x| - 1])
  {
    IgnoreEntriesStripped(lines);
    Collect(IgnoreEntries(lines))
  }

  function IgnoreEntries(lines: seq<string>): (entries: seq<Option<string>>)
    ensures |entries| == |lines|
    ensures forall i :: 0 <= i < |lines| ==> entries[i] == IgnoreEntry(lines[i])
  {
    seq(|lines|, i requires 0 <= i < |lines| => IgnoreEntry(lines[i]))
  }

  /** An entry is a stripped line, so it is non-empty with no white space at
      either end. */
  lemma IgnoreEntriesStripped(lines: seq<string>)
    ensures forall x :: x in Collect(IgnoreEntries(lines)) ==> x != [] && !IsSpace(x[0]) && !IsSpace(x[|x| - 1])
  {
    forall x | x in Collect(IgnoreEntries(lines))
      ensures x != [] && !IsSpace(x[0]) && !IsSpace(x[|x| - 1])
    {
      CollectMembers(IgnoreEntries(lines), x);
      var i :| 0 <= i < |lines| && IgnoreEntries(lines)[i] == Some(x);
      StripSpec(lines[i]);
    }
  }

  /** `load_ignore_list`: a missing file gives the empty set. */
  function LoadIgnoreList(file: Option<seq<string>>): (s: set<string>)
    ensures file.None? ==> s == {}
  {
    match file
    case None => {}
    case Some(lines) => IgnoreSet(lines)
  }

  /** The set holds exactly the stripped forms of the contributing lines. */
  lemma IgnoreSetMembers(lines: seq<string>, x: string)
    ensures x in IgnoreSet(lines) <==> exists i :: 0 <= i < |lines| && Listed(lines[i]) && Strip(lines[i]) == x
  {
    CollectMembers(IgnoreEntries(lines), x);
  }

  /** The `#` test looks at the unstripped line: an indented `#x` is kept as
      `#x`, while `#x` at the start of a line is a comment. */
  lemma IndentedHashKept()
    ensures IgnoreSet([" #x\n"]) == {"#x"}
    ensures IgnoreSet(["#x\n"]) == {}
  {
    assert " " + "#x" + "\n" == " #x\n";
    StripAround(" ", "#x", "\n");
    assert IgnoreEntry(" #x\n") == Some("#x");
    CollectSingle(IgnoreEntry(" #x\n"));
    assert IgnoreEntry("#x\n") == None;
    CollectSingle(IgnoreEntry("#x\n"));
    assert IgnoreEntries([" #x\n"]) == [IgnoreEntry(" #x\n")];
    assert IgnoreEntries(["#x\n"]) == [IgnoreEntry("#x\n")];
  }

  lemma CollectSingle(e: Option<string>)
    ensures Collect([e]) == if e.Some? then {e.value} else {}
  {
    assert [e][..0] == [];
  }
}

=== FILE: repo_naming.dfy ===
/**
 How the GitHub tools name a repository and where they write its output:
 - `get_repo_name` of ghsummarize.py and ghextractall.py (clone URL from the
   GitHub API) and of ghextract.py (URL given on the command line);
 - `get_repo_info` of summarize.py (owner and name from `git remote get-url`);
 - the output file names of the four dump/summary scripts;
 - the per-repository decision in the `main` loops of ghsummarize.py and
   ghextractall.py: skip by owner, skip by name, or fetch with a branch.
 */
module RepoNaming {
  import opened Wrappers
  import opened Text

  // ---------------------------------------------------------------------------
  // Repository names from URLs

  /** `re.sub(r'\.git$', '', s)`: `$` matches at the very end and also just
      before a final newline, so a terminal `.git`, or a `.git` followed by
      the final newline, is removed; nothing else changes. */
  function DropGitSuffix(s: string): (r: string)
    ensures |r| <= |s|
    ensures '/' !in s ==> '/' !in r
    ensures !EndsWith(s, ".git") && !EndsWith(s, ".git\n") ==> r == s
  {
    if EndsWith(s, ".git") then s[..|s| - 4]
    else if EndsWith(s, ".git\n") then s[..|s| - 5] + "\n"
    else s
  }

  /** Removing the suffix undoes appending it, and a name without it is kept
      as is, even when `.git` occurs earlier in it. */
  lemma DropGitSuffixRoundTrip(n: string)
    ensures DropGitSuffix(n + ".git") == n
    ensures !EndsWith(n, ".git") && !EndsWith(n, ".git\n") ==> DropGitSuffix(n) == n
  {
    assert (n + ".git")[..|n|] == n;
  }

  /** The name `get_repo_name` of ghsummarize.py and ghextractall.py gives a
      clone URL: trailing `/` removed, last `/` segment, terminal `.git`
      dropped. */
  function RepoNameFromCloneUrl(url: string): (n: string)
    ensures '/' !in n
  {
    DropGitSuffix(LastSegment(RStripChar(url, '/'), '/'))
  }

  /** The name `get_repo_name` of ghextract.py gives a command-line URL:
      surrounding white space (not `/`) removed, last `/` segment, terminal
      `.git` dropped. */
  function RepoNameFromArg(url: string): (n: string)
    ensures '/' !in n
  {
    DropGitSuffix(LastSegment(Strip(url), '/'))
  }

  /** A clone URL `base/n.git`, with any number of trailing `/`, names `n`. */
  lemma CloneUrlName(base: string, n: string, slashes: string)
    requires '/' !in n
    requires forall i :: 0 <= i < |slashes| ==> slashes[i] == '/'
    ensures RepoNameFromCloneUrl(base + "/" + n + ".git" + slashes) == n
  {
    var core := base + "/" + (n + ".git");
    assert base + "/" + n + ".git" + slashes == core + slashes;
    TrimRightSuffix(core, slashes, x => x == '/');
    assert core == base + ['/'] + (n + ".git");
    assert '/' !in n + ".git";
    LastSegmentIsTail(base, n + ".git", '/');
    DropGitSuffixRoundTrip(n);
  }

  /** A command-line URL `base/n.git`, with surrounding white space, names `n`. */
  lemma ArgUrlName(pre: string, base: string, n: string, post: string)
    requires forall i :: 0 <= i < |pre| ==> IsSpace(pre[i])
    requires forall i :: 0 <= i < |post| ==> IsSpace(post[i])
    requires base != [] && !IsSpace(base[0])
    requires '/' !in n
    ensures RepoNameFromArg(pre + base + "/" + n + ".git" + post) == n
  {
    var core := base + "/" + (n + ".git");
    assert pre + base + "/" + n + ".git" + post == pre + core + post;
    StripAround(pre, core, post);
    assert core == base + ['/'] + (n + ".git");
    assert '/' !in n + ".git";
    LastSegmentIsTail(base, n + ".git", '/');
    DropGitSuffixRoundTrip(n);
  }

  /** ghextract.py keeps a trailing `/`, so such a URL names the empty
      repository, while the API scripts strip it first. */
  lemma TrailingSlashNames(base: string)
    requires base != [] && !IsSpace(base[0])
    ensures RepoNameFromArg(base + "/") == ""
    ensures RepoNameFromCloneUrl(base + "/r/") == "r"
  {
    StripAround([], base + "/", []);
    assert [] + (base + "/") + [] == base + "/";
    assert base + "/" == base + ['/'] + [];
    LastSegmentIsTail(base, [], '/');
    assert base + "/r/" == base + "/" + "r" + "/";
    CloneUrlNoSuffix(base, "r", "/");
  }

  /** A clone URL `base/n` whose last segment has no `.git` suffix names `n`. */
  lemma CloneUrlNoSuffix(base: string, n: string, slashes: string)
    requires '/' !in n && n != []
    requires !EndsWith(n, ".git") && !EndsWith(n, ".git\n")
    requires forall i :: 0 <= i < |slashes| ==> slashes[i] == '/'
    ensures RepoNameFromCloneUrl(base + "/" + n + slashes) == n
  {
    var core := base + "/" + n;
    TrimRightSuffix(core, slashes, x => x == '/');
    assert core == base + ['/'] + n;
    LastSegmentIsTail(base, n, '/');
  }

  // ---------------------------------------------------------------------------
  // summarize.py: owner and name of the origin remote

  /** Owner (None when the remote has no owner segment) and repository name. */
  datatype RepoInfo = RepoInfo(owner: Option<string>, name: string)

  const LocalOwner: string := "local"

  /** Owner and name of an `https://` remote: the last two `/` segments. */
  function HttpsInfo(url: string, clean: string -> string): (info: RepoInfo)
    requires StartsWith(url, "https://")
    ensures info.owner.Some? && '/' !in info.owner.value
  {
    assert url[6] == '/';
    SplitAtSeparator(url, '/');
    var parts := Split(url, '/');
    RepoInfo(Some(parts[|parts| - 2]), clean(parts[|parts| - 1]))
  }

  /** Owner and name of any other remote (`git@host:owner/repo.git`): the
      text after the last `:`, split on `/`; a single segment has no owner. */
  function SshInfo(url: string, clean: string -> string): (info: RepoInfo)
    ensures info.owner.Some? ==> '/' !in info.owner.value
  {
    var parts := Split(LastSegment(url, ':'), '/');
    RepoInfo(if |parts| > 1 then Some(parts[|parts| - 2]) else None, clean(parts[|parts| - 1]))
  }

  /** The parse of `get_repo_info`, given the standard output of
      `git remote get-url origin` or None when that command fails, and the
      absolute path of the repository. `clean` removes `.git` from the last
      segment. */
  function ParseRemote(remote: Option<string>, absPath: string, clean: string -> string): (info: RepoInfo)
    ensures remote.None? ==> info == RepoInfo(Some(LocalOwner), LastSegment(absPath, '/'))
    ensures info.owner.Some? ==> '/' !in info.owner.value
  {
    match remote
    case None => RepoInfo(Some(LocalOwner), LastSegment(absPath, '/'))
    case Some(out) =>
      var url := Strip(out);
      if StartsWith(url, "https://") then HttpsInfo(url, clean) else SshInfo(url, clean)
  }

  /** `get_repo_info` as written: `replace('.git', '')` removes every `.git`
      in the last segment, not only the suffix. */
  function RepoInfoAsWritten(remote: Option<string>, absPath: string): (info: RepoInfo)
    ensures remote.None? ==> info == RepoInfo(Some(LocalOwner), LastSegment(absPath, '/'))
    ensures info.owner.Some? ==> '/' !in info.owner.value
  {
    ParseRemote(remote, absPath, ReplaceGit)
  }

  /** `s.replace('.git', '')`. */
  function ReplaceGit(s: string): string {
    ReplaceAll(s, ".git", "")
  }

  /** `get_repo_info` with the suffix removal the other scripts use. */
  function RepoInfoOf(remote: Option<string>, absPath: string): RepoInfo {
    ParseRemote(remote, absPath, DropGitSuffix)
  }

  /** The segments of `https://host/owner/last`. */
  lemma HttpsSegments(host: string, owner: string, last: string, clean: string -> string)
    requires '/' !in owner && '/' !in last
    ensures var url := "https://" + host + "/" + owner + "/" + last;
            StartsWith(url, "https://") && HttpsInfo(url, clean) == RepoInfo(Some(owner), clean(last))
  {
    var url := "https://" + host + "/" + owner + "/" + last;
    assert url[..8] == "https://";
    var x := "https://" + host;
    assert url == x + ['/'] + owner + ['/'] + last;
    SecondToLastSegment(x, owner, last, '/');
  }

  /** An HTTPS remote `https://host/owner/n.git`, as printed by git with
      surrounding white space, gives owner and name back. */
  lemma HttpsRemoteRoundTrip(pre: string, host: string, owner: string, n: string, post: string, absPath: string)
    requires forall i :: 0 <= i < |pre| ==> IsSpace(pre[i])
    requires forall i :: 0 <= i < |post| ==> IsSpace(post[i])
    requires '/' !in owner && '/' !in n
    ensures RepoInfoOf(Some(pre + "https://" + host + "/" + owner + "/" + n + ".git" + post), absPath)
         == RepoInfo(Some(owner), n)
  {
    var url := "https://" + host + "/" + owner + "/" + (n + ".git");
    assert pre + "https://" + host + "/" + owner + "/" + n + ".git" + post == pre + url + post;
    StripAround(pre, url, post);
    assert '/' !in n + ".git";
    HttpsSegments(host, owner, n + ".git", DropGitSuffix);
    DropGitSuffixRoundTrip(n);
  }

  /** `login:tail` with no `:` in the login does not start with `https://`
      unless the login is `https` itself. */
  lemma NotHttps(login: string, tail: string)
    requires ':' !in login && login != "https"
    ensures !StartsWith(login + ":" + tail, "https://")
  {
    var url := login + ":" + tail;
    if |login| >= 6 {
      assert url[5] == login[5];
    } else if |login| == 5 {
      assert url[..5] == login;
    } else {
      assert url[|login|] == ':';
    }
  }

  /** The segments after the last `:` of `login:tail`. */
  lemma SshSegments(login: string, tail: string, clean: string -> string)
    requires ':' !in tail
    ensures SshInfo(login + ":" + tail, clean) == SshInfo(tail, clean)
  {
    assert login + ":" + tail == login + [':'] + tail;
    LastSegmentIsTail(login, tail, ':');
    SplitNoSep(tail, ':');
  }

  /** The segments of `owner/last`. */
  lemma SshTail(owner: string, last: string, clean: string -> string)
    requires '/' !in owner && ':' !in owner && '/' !in last && ':' !in last
    ensures SshInfo(owner + "/" + last, clean) == RepoInfo(Some(owner), clean(last))
  {
    var tail := owner + "/" + last;
    assert tail == owner + ['/'] + last;
    assert ':' !in tail;
    SplitNoSep(tail, ':');
    SplitConcat(owner, last, '/');
    SplitNoSep(owner, '/');
    SplitNoSep(last, '/');
  }

  /** An SSH remote `login:owner/n.git` gives owner and name back. */
  lemma SshRemoteRoundTrip(login: string, owner: string, n: string, absPath: string)
    requires login != [] && !IsSpace(login[0]) && ':' !in login && login != "https"
    requires '/' !in owner && ':' !in owner && '/' !in n && ':' !in n
    ensures RepoInfoOf(Some(login + ":" + owner + "/" + n + ".git"), absPath) == RepoInfo(Some(owner), n)
  {
    var last := n + ".git";
    var tail := owner + "/" + last;
    var url := login + ":" + tail;
    assert login + ":" + owner + "/" + n + ".git" == url;
    StripAround([], url, []);
    assert [] + url + [] == url;
    NotHttps(login, tail);
    assert ':' !in last && '/' !in last;
    assert ':' !in tail;
    SshSegments(login, tail, DropGitSuffix);
    SshTail(owner, last, DropGitSuffix);
    DropGitSuffixRoundTrip(n);
  }

  /** A remote without `/` after its last `:` has no owner. */
  lemma SshRemoteWithoutOwner(login: string, n: string, absPath: string)
    requires login != [] && !IsSpace(login[0]) && ':' !in login && login != "https"
    requires '/' !in n && ':' !in n
    ensures RepoInfoOf(Some(login + ":" + n + ".git"), absPath) == RepoInfo(None, n)
  {
    var tail := n + ".git";
    var url := login + ":" + tail;
    assert login + ":" + n + ".git" == url;
    StripAround([], url, []);
    assert [] + url + [] == url;
    NotHttps(login, tail);
    assert ':' !in tail && '/' !in tail;
    SshSegments(login, tail, DropGitSuffix);
    SplitNoSep(tail, ':');
    SplitNoSep(tail, '/');
    DropGitSuffixRoundTrip(n);
  }

  /** A string in which no character starts the pattern passes through
      replacement unchanged in front of the rest. */
  lemma {:induction false} ReplaceSkipsPrefix(x: string, y: string, pat: string, rep: string)
    requires pat != []
    requires pat[0] !in x
    ensures ReplaceAll(x + y, pat, rep) == x + ReplaceAll(y, pat, rep)
    decreases |x|
  {
    if x != [] {
      var s := x + y;
      assert pat[0] !in x[1..] by {
        assert forall i :: 0 <= i < |x[1..]| ==> x[1..][i] == x[i + 1];
      }
      assert !StartsWith(s, pat) by {
        assert s[0] == x[0];
        if |pat| <= |s| { assert s[..|pat|][0] == x[0]; }
      }
      calc {
        ReplaceAll(s, pat, rep);
        == { ReplaceNoMatchHere(s, pat, rep); }
        [s[0]] + ReplaceAll(s[1..], pat, rep);
        == { assert s[0] == x[0] && s[1..] == x[1..] + y; }
        [x[0]] + ReplaceAll(x[1..] + y, pat, rep);
        == { ReplaceSkipsPrefix(x[1..], y, pat, rep); }
        [x[0]] + (x[1..] + ReplaceAll(y, pat, rep));
        == { assert x == [x[0]] + x[1..]; }
        x + ReplaceAll(y, pat, rep);
      }
    } else {
      assert x + y == y;
    }
  }

  lemma ReplaceShort(s: string, pat: string, rep: string)
    requires pat != [] && |s| < |pat|
    ensures ReplaceAll(s, pat, rep) == s
  {
  }

  /** Replacement of a string that begins with the pattern. */
  lemma ReplaceAtPattern(pat: string, y: string, rep: string)
    requires pat != []
    ensures ReplaceAll(pat + y, pat, rep) == rep + ReplaceAll(y, pat, rep)
  {
    assert (pat + y)[..|pat|] == pat;
    assert (pat + y)[|pat|..] == y;
  }

  /** Replacement of a string whose start is not an occurrence. */
  lemma ReplaceNoMatchHere(s: string, pat: string, rep: string)
    requires pat != [] && s != [] && !StartsWith(s, pat)
    ensures ReplaceAll(s, pat, rep) == [s[0]] + ReplaceAll(s[1..], pat, rep)
  {
  }

  /** `replace('.git', '')` on a last segment `a.git<b1>.<b2>.git` (a GitHub
      Pages repository `a.github.io` is one) removes the inner `.git` too. */
  lemma InnerGitRemoved(a: string, b1: string, b2: string)
    requires '.' !in a && '.' !in b1 && '.' !in b2
    requires b2 != [] && b2[0] != 'g'
    ensures ReplaceAll(a + ".git" + b1 + "." + b2 + ".git", ".git", "") == a + b1 + "." + b2
  {
    var tail := "." + b2 + ".git";
    InnerShape(a, b1, b2);
    ReplaceSkipsPrefix(a, ".git" + (b1 + tail), ".git", "");
    DropPattern(b1 + tail);
    ReplaceSkipsPrefix(b1, tail, ".git", "");
    InnerTail(b2);
  }

  lemma InnerShape(a: string, b1: string, b2: string)
    ensures a + ".git" + b1 + "." + b2 + ".git" == a + (".git" + (b1 + ("." + b2 + ".git")))
    ensures a + (b1 + ("." + b2)) == a + b1 + "." + b2
  {
  }

  lemma DropPattern(y: string)
    ensures ReplaceAll(".git" + y, ".git", "") == ReplaceAll(y, ".git", "")
  {
    ReplaceAtPattern(".git", y, "");
    assert "" + ReplaceAll(y, ".git", "") == ReplaceAll(y, ".git", "");
  }

  lemma InnerTail(b2: string)
    requires '.' !in b2 && b2 != [] && b2[0] != 'g'
    ensures ReplaceAll("." + b2 + ".git", ".git", "") == "." + b2
  {
    var pat := ".git";
    assert pat[0] == '.' && pat[1] == 'g';
    LeadTail('.', b2, pat);
    assert "." + b2 + ".git" == ['.'] + (b2 + pat);
  }

  /** `<c><b2><pat>` with `c` the pattern's first character loses only the
      final occurrence. */
  lemma LeadTail(c: char, b2: string, pat: string)
    requires |pat| >= 2 && c == pat[0] && c !in b2 && b2 != [] && b2[0] != pat[1]
    ensures ReplaceAll([c] + (b2 + pat), pat, "") == [c] + b2
  {
    var rest := b2 + pat;
    var tail := [c] + rest;
    assert tail[1] == b2[0];
    assert !StartsWith(tail, pat) by {
      assert |tail| >= |pat|;
      assert tail[..|pat|][1] == tail[1];
    }
    ReplaceNoMatchHere(tail, pat, "");
    assert tail[1..] == rest;
    ReplaceSkipsPrefix(b2, pat, pat, "");
    assert ReplaceAll(pat, pat, "") == [] by {
      ReplaceAtPattern(pat, [], "");
      assert pat + [] == pat;
      ReplaceShort([], pat, "");
    }
    assert b2 + [] == b2;
  }

  /** The owner of an HTTPS remote is its second-to-last segment, and its
      name is the last segment cleaned: with `replace('.git', '')` as
      written, with suffix removal as intended. */
  lemma HttpsRemote(host: string, owner: string, last: string, absPath: string)
    requires '/' !in owner && '/' !in last
    requires last != [] && !IsSpace(last[|last| - 1])
    ensures RepoInfoAsWritten(Some("https://" + host + "/" + owner + "/" + last), absPath)
         == RepoInfo(Some(owner), ReplaceAll(last, ".git", ""))
    ensures RepoInfoOf(Some("https://" + host + "/" + owner + "/" + last), absPath)
         == RepoInfo(Some(owner), DropGitSuffix(last))
  {
    var url := "https://" + host + "/" + owner + "/" + last;
    HttpsUrlStripped(host, owner, last);
    HttpsSegments(host, owner, last, ReplaceGit);
    HttpsSegments(host, owner, last, DropGitSuffix);
    HttpsDispatch(url, absPath, ReplaceGit);
    HttpsDispatch(url, absPath, DropGitSuffix);
  }

  lemma HttpsUrlStripped(host: string, owner: string, last: string)
    requires last != [] && !IsSpace(last[|last| - 1])
    ensures Strip("https://" + host + "/" + owner + "/" + last) == "https://" + host + "/" + owner + "/" + last
  {
    var url := "https://" + host + "/" + owner + "/" + last;
    assert url[|url| - 1] == last[|last| - 1];
    assert url[0] == 'h';
    StripAround([], url, []);
    assert [] + url + [] == url;
  }

  lemma HttpsDispatch(url: string, absPath: string, clean: string -> string)
    requires Strip(url) == url && StartsWith(url, "https://")
    ensures ParseRemote(Some(url), absPath, clean) == HttpsInfo(url, clean)
  {
  }

  /** For an HTTPS remote whose repository name holds an inner `.git`, the
      code as written returns a different name from the one the repository
      has, while the suffix removal returns it. */
  lemma HttpsInnerGitAsWritten(host: string, owner: string, a: string, b1: string, b2: string, absPath: string)
    requires '/' !in owner && '/' !in a && '/' !in b1 && '/' !in b2
    requires '.' !in a && '.' !in b1 && '.' !in b2
    requires b2 != [] && b2[0] != 'g'
    ensures var last := a + ".git" + b1 + "." + b2 + ".git";
            var out := "https://" + host + "/" + owner + "/" + last;
            && RepoInfoAsWritten(Some(out), absPath).name == a + b1 + "." + b2
            && RepoInfoOf(Some(out), absPath).name == a + ".git" + b1 + "." + b2
            && a + b1 + "." + b2 != a + ".git" + b1 + "." + b2
  {
    var n := a + ".git" + b1 + "." + b2;
    var last := a + ".git" + b1 + "." + b2 + ".git";
    assert last == n + ".git";
    assert '/' !in last;
    HttpsRemote(host, owner, last, absPath);
    InnerGitRemoved(a, b1, b2);
    DropGitSuffixRoundTrip(n);
    assert |a + b1 + "." + b2| < |n|;
  }

  /** The GitHub Pages repository `alice.github.io` is reported as
      `alicehub.io` by the code as written. */
  lemma PagesRemoteAsWritten(out: string, absPath: string)
    requires out == "https://github.com/alice/alice.github.io.git"
    ensures RepoInfoAsWritten(Some(out), absPath).name == "alicehub.io"
    ensures RepoInfoOf(Some(out), absPath).name == "alice.github.io"
  {
    PagesPieces(out);
    HttpsInnerGitAsWritten("github.com", "alice", "alice", "hub", "io", absPath);
  }

  /** The pieces HttpsInnerGitAsWritten takes apart, spelled out for the
      Pages URL. Each equation between string literals below is a lemma of
      its own: proved together they cost the solver several times as much. */
  lemma PagesPieces(out: string)
    requires out == "https://github.com/alice/alice.github.io.git"
    ensures out == "https://" + "github.com" + "/" + "alice" + "/" + ("alice" + ".git" + "hub" + "." + "io" + ".git")
    ensures "alice" + "hub" + "." + "io" == "alicehub.io"
    ensures "alice" + ".git" + "hub" + "." + "io" == "alice.github.io"
  {
    PagesUrl(out);
    PagesShort();
    PagesLong();
  }

  lemma PagesUrl(out: string)
    requires out == "https://github.com/alice/alice.github.io.git"
    ensures out == "https://" + "github.com" + "/" + "alice" + "/" + ("alice" + ".git" + "hub" + "." + "io" + ".git")
  {
    PagesHost();
    PagesLast();
    PagesWhole();
  }

  lemma PagesHost()
    ensures "https://" + "github.com" + "/" + "alice" + "/" == "https://github.com/alice/"
  {
  }

  lemma PagesLast()
    ensures "alice" + ".git" + "hub" + "." + "io" + ".git" == "alice.github.io.git"
  {
  }

  lemma PagesWhole()
    ensures "https://github.com/alice/alice.github.io.git" == "https://github.com/alice/" + "alice.github.io.git"
  {
  }

  lemma PagesShort()
    ensures "alice" + "hub" + "." + "io" == "alicehub.io"
  {
  }

  lemma PagesLong()
    ensures "alice" + ".git" + "hub" + "." + "io" == "alice.github.io"
  {
  }

  // ---------------------------------------------------------------------------
  // Output files

  /** `f"{owner}"` for an optional owner: Python prints None as `None`. */
  function OwnerText(owner: Option<string>): (t: string)
    ensures owner.Some? ==> t == owner.value
  {
    match owner
    case Some(o) => o
    case None => "None"
  }

  const SummarySuffix: string := "_summary.md"
  const ContentsSuffix: string := "_contents.txt"

  /** `f"{owner}_{repo_name}{suffix}"`. */
  function OutputName(owner: string, name: string, suffix: string): (f: string)
    ensures StartsWith(f, owner + "_") && EndsWith(f, suffix)
  {
    assert (owner + "_" + name + suffix)[..|owner| + 1] == owner + "_";
    owner + "_" + name + suffix
  }

  /** Reads owner and name back from an output name: the owner is the text
      before the first `_`. */
  function ParseOutputName(f: string, suffix: string): Option<(string, string)> {
    if !EndsWith(f, suffix) then None
    else
      var stem := f[..|f| - |suffix|];
      if '_' !in stem then None
      else
        var k := IndexOf(stem, '_');
        Some((stem[..k], stem[k + 1..]))
  }

  /** An output name identifies its repository when the owner has no `_`
      (GitHub logins never do). */
  lemma OutputNameRoundTrip(owner: string, name: string, suffix: string)
    requires '_' !in owner
    ensures ParseOutputName(OutputName(owner, name, suffix), suffix) == Some((owner, name))
  {
    var f := OutputName(owner, name, suffix);
    var stem := owner + "_" + name;
    assert f[..|f| - |suffix|] == stem;
    assert stem[..|owner|] == owner;
    assert stem[|owner|] == '_';
    IndexOfUnique(stem, '_', |owner|);
    assert stem[|owner| + 1..] == name;
  }

  /** Python's `os.path.join(dir, name)` on POSIX: an absolute `name` replaces
      the directory, and a `/` is inserted unless `dir` is empty or ends in
      one. */
  function JoinPath(dir: string, name: string): (p: string)
    ensures EndsWith(p, name)
    ensures !StartsWith(name, "/") && dir != [] && !EndsWith(dir, "/") ==> StartsWith(p, dir + "/")
  {
    if StartsWith(name, "/") then name
    else if dir == [] || EndsWith(dir, "/") then dir + name
    else
      assert (dir + "/" + name)[..|dir| + 1] == dir + "/";
      dir + "/" + name
  }

  /** The output file of summarize.py: an explicit non-empty `--output`,
      else the contents name in the working directory (extract only), else
      the summary name in the output directory. */
  function SummarizeOutput(output: Option<string>, extractOnly: bool, outputDir: string, info: RepoInfo): (f: string)
    ensures Present(output) ==> f == output.value
    ensures !Present(output) ==> EndsWith(f, if extractOnly then ContentsSuffix else SummarySuffix)
  {
    if Present(output) then output.value
    else if extractOnly then OutputName(OwnerText(info.owner), info.name, ContentsSuffix)
    else JoinPath(outputDir, OutputName(OwnerText(info.owner), info.name, SummarySuffix))
  }

  /** Unless `--output` is given, the output of summarize.py is named after
      the owner and name `get_repo_info` parsed, whichever way the last
      segment is cleaned (as written, `replace` may change the name: see
      PagesRemoteAsWritten): the owner part holds no `/`, so the summary
      lands directly in the output directory, and owner and name read back
      from the file name when the owner has no `_`. */
  lemma SummarizeOutputNamesRepo(output: Option<string>, extractOnly: bool, outputDir: string,
                                 remote: Option<string>, absPath: string, clean: string -> string)
    requires outputDir != [] && !EndsWith(outputDir, "/")
    ensures var info := ParseRemote(remote, absPath, clean);
            var f := SummarizeOutput(output, extractOnly, outputDir, info);
            && (Present(output) ==> f == output.value)
            && (!Present(output) && extractOnly ==>
                  f == OutputName(OwnerText(info.owner), info.name, ContentsSuffix))
            && (!Present(output) && !extractOnly ==>
                  f == outputDir + "/" + OutputName(OwnerText(info.owner), info.name, SummarySuffix))
            && ('_' !in OwnerText(info.owner) ==>
                  var suffix := if extractOnly then ContentsSuffix else SummarySuffix;
                  ParseOutputName(OutputName(OwnerText(info.owner), info.name, suffix), suffix)
                    == Some((OwnerText(info.owner), info.name)))
  {
    var info := ParseRemote(remote, absPath, clean);
    if '_' !in OwnerText(info.owner) {
      OutputNameRoundTrip(OwnerText(info.owner), info.name, if extractOnly then ContentsSuffix else SummarySuffix);
    }
    var o := OwnerText(info.owner);
    assert '/' !in o;
    var name := OutputName(o, info.name, SummarySuffix);
    assert '/' !in o + "_";
    assert name[0] == (o + "_")[0];
  }

  /** The default output of ghextract.py: `args.output or
      f"{repo_name}_contents.txt"`, so an empty `--output` is ignored. */
  function GhExtractOutput(output: Option<string>, url: string): (f: string)
    ensures !Present(output) ==> EndsWith(f, ContentsSuffix)
  {
    if Present(output) then output.value
    else
      assert (RepoNameFromArg(url) + ContentsSuffix)[|RepoNameFromArg(url)|..] == ContentsSuffix;
      RepoNameFromArg(url) + ContentsSuffix
  }

  const ExtractDefaultOutput: string := "repo_contents.txt"

  /** The output of extract.py: argparse substitutes the default only when
      `--output` is absent, so an empty value is kept. */
  function ExtractOutput(output: Option<string>): (f: string)
    ensures output.Some? ==> f == output.value
  {
    output.GetOr(ExtractDefaultOutput)
  }

  /** The two command-line scripts differ on an empty `--output`, and a
      URL ending in `/` makes ghextract.py write `_contents.txt`. */
  lemma OutputDefaults(base: string)
    requires base != [] && !IsSpace(base[0])
    ensures ExtractOutput(Some("")) == "" && ExtractOutput(None) == "repo_contents.txt"
    ensures GhExtractOutput(Some(""), base + "/") == "_contents.txt"
  {
    TrailingSlashNames(base);
  }

  // ---------------------------------------------------------------------------
  // The per-repository decision of ghsummarize.py and ghextractall.py

  datatype Tool = GhSummarize | GhExtractAll

  /** What `main` does with one repository returned by the API. */
  datatype Plan =
    | SkipByOwner
    | SkipByName
    | Fetch(key: string, branch: Option<string>, outFile: string)

  /** The decision for one repository: the owner-ignore set is consulted
      first, then the name-ignore set; otherwise the branch is looked up by
      `owner/name` and the output is named after owner and name. */
  function PlanRepo(tool: Tool, outputDir: string, owner: string, cloneUrl: string,
                    ownerIgnore: set<string>, repoIgnore: set<string>,
                    branches: map<string, string>): (p: Plan)
    ensures p.SkipByOwner? <==> owner in ownerIgnore
    ensures p.SkipByName? <==> owner !in ownerIgnore && RepoNameFromCloneUrl(cloneUrl) in repoIgnore
  {
    var name := RepoNameFromCloneUrl(cloneUrl);
    var key := owner + "/" + name;
    if owner in ownerIgnore then SkipByOwner
    else if name in repoIgnore then SkipByName
    else
      var suffix := if tool == GhSummarize then SummarySuffix else ContentsSuffix;
      Fetch(key, if key in branches then Some(branches[key]) else None,
            JoinPath(outputDir, OutputName(owner, name, suffix)))
  }

  /** An ignored owner decides the outcome alone: the name-ignore set and
      the branch map are not consulted. */
  lemma OwnerIgnoreFirst(tool: Tool, outputDir: string, owner: string, cloneUrl: string,
                         ownerIgnore: set<string>, repoIgnore1: set<string>, repoIgnore2: set<string>,
                         branches1: map<string, string>, branches2: map<string, string>)
    requires owner in ownerIgnore
    ensures PlanRepo(tool, outputDir, owner, cloneUrl, ownerIgnore, repoIgnore1, branches1)
         == PlanRepo(tool, outputDir, owner, cloneUrl, ownerIgnore, repoIgnore2, branches2)
         == SkipByOwner
  {
  }

  /** A repository that is fetched uses the branch configured for its
      `owner/name` key (none when unconfigured) and writes
      `owner_name_summary.md` or `owner_name_contents.txt` inside the output
      directory. */
  lemma FetchPlan(tool: Tool, outputDir: string, owner: string, base: string, n: string,
                  ownerIgnore: set<string>, repoIgnore: set<string>, branches: map<string, string>)
    requires '/' !in n && owner != [] && owner[0] != '/'
    requires outputDir != [] && !EndsWith(outputDir, "/")
    requires owner !in ownerIgnore && n !in repoIgnore
    ensures var p := PlanRepo(tool, outputDir, owner, base + "/" + n + ".git", ownerIgnore, repoIgnore, branches);
            && p.Fetch?
            && p.key == owner + "/" + n
            && (p.branch.Some? <==> owner + "/" + n in branches)
            && (p.branch.Some? ==> p.branch.value == branches[owner + "/" + n])
            && p.outFile == outputDir + "/" + OutputName(owner, n, if tool == GhSummarize then SummarySuffix else ContentsSuffix)
  {
    CloneUrlName(base, n, "");
    assert base + "/" + n + ".git" + "" == base + "/" + n + ".git";
    var suffix := if tool == GhSummarize then SummarySuffix else ContentsSuffix;
    assert OutputName(owner, n, suffix)[0] == owner[0];
  }
}

=== FILE: text.dfy ===
/**
 The Python string operations the tools rely on (`strip`, `startswith`, `in`,
 `split`, `rstrip`, `replace`, `lower`), written over `seq<char>` with the
 behaviour of CPython 3 for the cases the tools reach.
 */
module Text {
  import opened Wrappers

  /** `str.isspace()` of CPython: the characters `strip()` and `split()` treat as
      white space (ASCII ones, the four information separators, NEL, NBSP and the
      Unicode space separators). */
  predicate IsSpace(c: char) {
    || c == ' ' || c == '\t' || c == '\n' || c == '\r' || c == '\U{B}' || c == '\U{C}'
    || ('\U{1C}' <= c <= '\U{1F}')
    || c == '\U{85}' || c == '\U{A0}' || c == '\U{1680}'
    || ('\U{2000}' <= c <= '\U{200A}')
    || c == '\U{2028}' || c == '\U{2029}' || c == '\U{202F}' || c == '\U{205F}' || c == '\U{3000}'
  }

  /** Python truthiness of an optional string: present and non-empty. */
  predicate Present(o: Option<string>) {
    o.Some? && o.value != ""
  }

  predicate StartsWith(s: string, prefix: string) {
    |prefix| <= |s| && s[..|prefix|] == prefix
  }

  predicate EndsWith(s: string, suffix: string) {
    |suffix| <= |s| && s[|s| - |suffix|..] == suffix
  }

  /** Python's `needle in hay` for strings (the empty needle occurs everywhere). */
  predicate Contains(hay: string, needle: string)
    decreases |hay|
  {
    StartsWith(hay, needle) || (hay != [] && Contains(hay[1..], needle))
  }

  /** Removes the longest prefix whose characters all satisfy `p`. */
  function TrimLeft(s: string, p: char -> bool): (r: string)
    ensures |r| <= |s|
    decreases |s|
  {
    if s != [] && p(s[0]) then TrimLeft(s[1..], p) else s
  }

  /** What TrimLeft removes satisfies `p`, and what it keeps is a suffix that
      does not start with such a character. */
  lemma {:induction false} TrimLeftSpec(s: string, p: char -> bool)
    ensures var r := TrimLeft(s, p);
            && r == s[|s| - |r|..]
            && (forall i :: 0 <= i < |s| - |r| ==> p(s[i]))
            && (r == [] || !p(r[0]))
    decreases |s|
  {
    if s != [] && p(s[0]) {
      TrimLeftSpec(s[1..], p);
    }
  }

  /** Removes the longest suffix whose characters all satisfy `p`. */
  function TrimRight(s: string, p: char -> bool): (r: string)
    ensures |r| <= |s|
    decreases |s|
  {
    if s != [] && p(s[|s| - 1]) then TrimRight(s[..|s| - 1], p) else s
  }

  /** Mirror of TrimLeftSpec for the right end. */
  lemma {:induction false} TrimRightSpec(s: string, p: char -> bool)
    ensures var r := TrimRight(s, p);
            && r == s[..|r|]
            && (forall i :: |r| <= i < |s| ==> p(s[i]))
            && (r == [] || !p(r[|r| - 1]))
    decreases |s|
  {
    if s != [] && p(s[|s| - 1]) {
      TrimRightSpec(s[..|s| - 1], p);
    }
  }

  /** Python's `s.strip(chars)` with the set of characters given as a predicate. */
  function Trim(s: string, p: char -> bool): string {
    TrimRight(TrimLeft(s, p), p)
  }

  /** Python's `s.strip()`. */
  function Strip(s: string): string {
    Trim(s, IsSpace)
  }

  /** A stripped string has no white space at either end. */
  lemma StripSpec(s: string)
    ensures var r := Strip(s);
            && (r == [] || (!IsSpace(r[0]) && !IsSpace(r[|r| - 1])))
            && |r| <= |s|
  {
    TrimLeftSpec(s, IsSpace);
    TrimRightSpec(TrimLeft(s, IsSpace), IsSpace);
  }

  /** Stripping removes exactly the white space put around a string that has
      none at its ends. */
  lemma StripAround(pre: string, line: string, post: string)
    requires forall i :: 0 <= i < |pre| ==> IsSpace(pre[i])
    requires forall i :: 0 <= i < |post| ==> IsSpace(post[i])
    requires line != [] && !IsSpace(line[0]) && !IsSpace(line[|line| - 1])
    ensures Strip(pre + line + post) == line
  {
    assert pre + line + post == pre + (line + post);
    TrimLeftPrefix(pre, line + post, IsSpace);
    TrimRightSuffix(line, post, IsSpace);
  }

  /** Python's `s.rstrip(c)` for a one-character argument. */
  function RStripChar(s: string, c: char): string {
    TrimRight(s, x => x == c)
  }

  /** Trimming stops at the first character outside `p`: `p`-characters in front
      of such a character are all removed and nothing after them is. */
  lemma TrimLeftPrefix(x: string, y: string, p: char -> bool)
    requires forall k :: 0 <= k < |x| ==> p(x[k])
    requires y != [] && !p(y[0])
    ensures TrimLeft(x + y, p) == y
  {
    TrimLeftSpec(x + y, p);
    assert (x + y)[|x|] == y[0];
    assert forall k :: 0 <= k < |x| ==> (x + y)[k] == x[k];
  }

  /** Mirror of TrimLeftPrefix for the right end. */
  lemma TrimRightSuffix(x: string, y: string, p: char -> bool)
    requires forall k :: 0 <= k < |y| ==> p(y[k])
    requires x != [] && !p(x[|x| - 1])
    ensures TrimRight(x + y, p) == x
  {
    var s := x + y;
    var r := TrimRight(s, p);
    TrimRightSpec(s, p);
    assert !p(s[|x| - 1]);
    assert forall k :: |x| <= k < |s| ==> p(s[k]) by {
      forall k | |x| <= k < |s| ensures p(s[k]) {
        assert s[k] == y[k - |x|];
      }
    }
    assert |r| == |x|;
    assert s[..|x|] == x;
  }

  /** Index of the first occurrence of `c` in `s`. */
  function IndexOf(s: string, c: char): (k: nat)
    requires c in s
    ensures k < |s| && s[k] == c && c !in s[..k]
  {
    if s[0] == c then 0
    else
      var k' := IndexOf(s[1..], c);
      assert s[..k' + 1] == [s[0]] + s[1..][..k'];
      k' + 1
  }

  /** The first occurrence is determined by its defining property. */
  lemma IndexOfUnique(s: string, c: char, k: nat)
    requires k < |s| && s[k] == c && c !in s[..k]
    ensures IndexOf(s, c) == k
  {
    var j := IndexOf(s, c);
    assert forall i :: 0 <= i < k ==> s[..k][i] == s[i];
    assert forall i :: 0 <= i < j ==> s[..j][i] == s[i];
  }

  /** Python's `sep.join(parts)` for a one-character separator. */
  function Join(parts: seq<string>, c: char): string
    decreases |parts|
  {
    if parts == [] then []
    else if |parts| == 1 then parts[0]
    else parts[0] + [c] + Join(parts[1..], c)
  }

  /** Python's `s.split(c)` for a one-character separator, read character by
      character: never empty, and no part holds the separator. */
  function Split(s: string, c: char): (parts: seq<string>)
    ensures |parts| >= 1
    ensures forall i :: 0 <= i < |parts| ==> c !in parts[i]
    decreases |s|
  {
    if s == [] then [[]]
    else
      var rest := Split(s[1..], c);
      if s[0] == c then [[]] + rest
      else [[s[0]] + rest[0]] + rest[1..]
  }

  /** A string without the separator is its own only part. */
  lemma {:induction false} SplitNoSep(s: string, c: char)
    requires c !in s
    ensures Split(s, c) == [s]
    decreases |s|
  {
    if s != [] {
      SplitNoSep(s[1..], c);
      assert [s[0]] + s[1..] == s;
    }
  }

  /** A string holding the separator splits into at least two parts. */
  lemma {:induction false} SplitAtSeparator(s: string, c: char)
    requires c in s
    ensures |Split(s, c)| >= 2
    decreases |s|
  {
    if s[0] != c {
      assert c in s[1..];
      SplitAtSeparator(s[1..], c);
    }
  }

  /** `s.split(c)` has a second part exactly when `c` occurs in `s`. */
  lemma SplitHasSecond(s: string, c: char)
    ensures |Split(s, c)| >= 2 <==> c in s
  {
    if c in s {
      SplitAtSeparator(s, c);
    } else {
      SplitNoSep(s, c);
    }
  }

  /** Joining a list that starts with `p` puts `p` in front. */
  lemma JoinFront(p: string, t: seq<string>, c: char)
    ensures Join([p] + t, c) == p + (if t == [] then [] else [c] + Join(t, c))
  {
    if t != [] {
      assert ([p] + t)[1..] == t;
    }
  }

  /** Joining the parts back gives the string that was split. */
  lemma {:induction false} JoinSplit(s: string, c: char)
    ensures Join(Split(s, c), c) == s
    decreases |s|
  {
    if s != [] {
      var rest := Split(s[1..], c);
      JoinSplit(s[1..], c);
      assert s == [s[0]] + s[1..];
      if s[0] == c {
        JoinFront([], rest, c);
      } else {
        assert rest == [rest[0]] + rest[1..];
        JoinFront([s[0]] + rest[0], rest[1..], c);
        JoinFront(rest[0], rest[1..], c);
      }
    }
  }

  /** One step of the split: the first character either ends the first part
      or joins it. */
  lemma SplitCons(a: char, s: string, c: char)
    ensures Split([a] + s, c) ==
      if a == c then [[]] + Split(s, c) else [[a] + Split(s, c)[0]] + Split(s, c)[1..]
  {
    assert ([a] + s)[1..] == s;
  }

  /** Extending the first part of a list of parts commutes with appending. */
  lemma GlueFirst(a: string, xs: seq<string>, ys: seq<string>)
    requires |xs| >= 1
    ensures [a + (xs + ys)[0]] + (xs + ys)[1..] == ([a + xs[0]] + xs[1..]) + ys
  {
    assert (xs + ys)[0] == xs[0];
    assert (xs + ys)[1..] == xs[1..] + ys;
  }

  /** Splitting where the separator occurs glues the parts of both sides. */
  lemma {:induction false} SplitConcat(x: string, y: string, c: char)
    ensures Split(x + [c] + y, c) == Split(x, c) + Split(y, c)
    decreases |x|
  {
    if x == [] {
      assert x + [c] + y == [c] + y;
      SplitCons(c, y, c);
    } else {
      var a, x' := x[0], x[1..];
      assert x + [c] + y == [a] + (x' + [c] + y);
      assert x == [a] + x';
      SplitCons(a, x' + [c] + y, c);
      SplitCons(a, x', c);
      SplitConcat(x', y, c);
      if a != c {
        GlueFirst([a], Split(x', c), Split(y, c));
      }
    }
  }

  /** Splitting undoes joining when no part holds the separator. */
  lemma {:induction false} SplitJoin(parts: seq<string>, c: char)
    requires |parts| >= 1
    requires forall i :: 0 <= i < |parts| ==> c !in parts[i]
    ensures Split(Join(parts, c), c) == parts
    decreases |parts|
  {
    if |parts| == 1 {
      SplitNoSep(parts[0], c);
    } else {
      SplitJoin(parts[1..], c);
      SplitConcat(parts[0], Join(parts[1..], c), c);
      SplitNoSep(parts[0], c);
      assert parts == [parts[0]] + parts[1..];
    }
  }

  /** `s.split(c)[-1]`: the text after the last `c`, or all of `s`. */
  function LastSegment(s: string, c: char): string {
    var parts := Split(s, c);
    parts[|parts| - 1]
  }

  /** The last segment is the longest suffix free of `c`. */
  lemma LastSegmentIsTail(x: string, y: string, c: char)
    requires c !in y
    ensures LastSegment(x + [c] + y, c) == y
  {
    SplitConcat(x, y, c);
    SplitNoSep(y, c);
  }

  /** `s.split(c)[-2]` when the segment before the last one is `o`. */
  lemma SecondToLastSegment(x: string, o: string, y: string, c: char)
    requires c !in o && c !in y
    ensures var parts := Split(x + [c] + o + [c] + y, c);
            |parts| >= 2 && parts[|parts| - 2] == o && parts[|parts| - 1] == y
  {
    SplitConcat(x + [c] + o, y, c);
    SplitConcat(x, o, c);
    SplitNoSep(o, c);
    SplitNoSep(y, c);
    var px := Split(x, c);
    var parts := px + [o] + [y];
    assert Split(x + [c] + o + [c] + y, c) == parts;
  }

  /** Python's `s.replace(pat, rep)`: every leftmost non-overlapping occurrence of
      `pat`, scanning from the start, is replaced. */
  function ReplaceAll(s: string, pat: string, rep: string): string
    requires pat != []
    decreases |s|
  {
    if |s| < |pat| then s
    else if s[..|pat|] == pat then rep + ReplaceAll(s[|pat|..], pat, rep)
    else [s[0]] + ReplaceAll(s[1..], pat, rep)
  }

  /** Replacement leaves a string without the pattern unchanged. */
  lemma {:induction false} ReplaceAbsent(s: string, pat: string, rep: string)
    requires pat != []
    requires !Contains(s, pat)
    ensures ReplaceAll(s, pat, rep) == s
    decreases |s|
  {
    if |s| >= |pat| {
      assert s[..|pat|] != pat;
      ReplaceAbsent(s[1..], pat, rep);
    }
  }

  /** ASCII case mapping of `str.lower()`. */
  function LowerChar(c: char): char {
    if 'A' <= c <= 'Z' then (c as int + 32) as char else c
  }

  function Lower(s: string): (r: string)
    ensures |r| == |s|
    ensures forall i :: 0 <= i < |s| ==> r[i] == LowerChar(s[i])
  {
    seq(|s|, i requires 0 <= i < |s| => LowerChar(s[i]))
  }
}

=== FILE: wrappers.dfy ===
/** Optional values, standing for Python's `None` or a present value. */
module Wrappers {

  datatype Option<+T> = None | Some(value: T) {

    /** Returns the value in Some, or the default when None (Python's `x or default`
        when the only falsy value is None). */
    function GetOr(default: T): T {
      match this
      case Some(v) => v
      case None => default
    }
  }
}
